=== FILE: README.md ===
# Portfolio bookkeeping, modelled in Dafny

This project models the investment-portfolio core of a personal-finance
mobile app. The app is written in TypeScript on top of SQLite and a broker's
REST API. The model covers five parts:

- **The local store** (`app/database.ts`). It covers the tables created on
  load, the one migration that adds `openPosition` to `Portfolio`, and the
  first fill of `Portfolio` from the broker when the table is empty
  (`database.dfy`, `tables.dfy`).
- **The MEP exchange-rate cache** (`services/DolarMEP.tsx`). It is one slot,
  filled by the first successful fetch and never cleared
  (`dolar_mep.dfy`).
- **The broker gateway** (`services/IolService.tsx`). It covers access-token
  expiry and refresh, the request interceptor, the normalisation of the
  broker's positions into peso and dollar figures (with the quote per 100
  nominal for peso bonds) and the renaming of operations
  (`iol_service.dfy`).
- **Applying trades** (`services/PortfolioService.ts`):
  - recording a trade in the `Operations` ledger, priced in both currencies
    through the MEP sell rate;
  - updating a position: a weighted-average cost on buys, and on sells a
    quantity floored at zero;
  - appending a valuation snapshot.

  This is `portfolio_service.dfy`.
- **The read side** (`services/PortfolioQueries.ts`). It covers the latest
  snapshot (synthesised and stored when none exists), the snapshot before it,
  and the positions listed by symbol (`portfolio_queries.dfy`,
  `symbol_order.dfy`).

Tables are sequences of records in rowid order. `Portfolio` carries its
AUTOINCREMENT counter, so ids are never reused. The schema has no UNIQUE
constraint on `symbol`, so duplicates are allowed.

Amounts are `real`. Timestamps are integers that stand in for the ISO strings
the app stores (they compare the same way).

Every side effect the source performs is an input here:

| source action | modelled as |
|---|---|
| HTTP request | an `Option` answer (`None` when it throws) |
| a read or single write whose failure the model follows | a `bool` |
| a failing INSERT or UPDATE inside a loop | its position |
| the clock | the parameter `now` |

Some SQLite failures are not followed; "## Left out" lists them, member by
member.

Functions that `catch` and swallow their errors keep whatever was done
before the failure. `populatePortfolioTable` keeps the rows inserted before a
failing INSERT. `storeOperation` keeps the exchange rate its lookup cached,
even when its INSERT then fails. Functions that rethrow return a `Result`,
together with the state the failure leaves.

Some behaviour of the source is kept as written:

- `updatePortfolio` reads only the first row holding the symbol and updates
  by that row's id.
- The snapshot values each position the broker still reports at the broker's
  *purchase* price (`ppc`), not its latest price. It also overwrites
  `lastPrice` with that figure on every row with that symbol.
- `populatePortfolioTable` stores the purchase price as the last price.
- Sells never touch the average cost, and they write the old last price back.

## Model

| member | source | states |
|---|---|---|
| `Tables.EmptyTable` | app/database.ts:35-46 | A freshly created `Portfolio` table has no rows and satisfies the key invariant. |
| `Tables.Insert` | app/database.ts:35-36 | An INSERT appends the row under the next AUTOINCREMENT id and keeps ids distinct and below the counter. |
| `Tables.UpdateWhereId` | services/PortfolioService.ts:117-130 | UPDATE ... WHERE id rewrites exactly the rows carrying that id and leaves every other row alone. |
| `Tables.FirstWithSymbol` | services/PortfolioService.ts:74-77 | The lookup finds the first row in rowid order with the symbol, and reports None exactly when no row has it. |
| `Tables.FirstWithSymbolKeptBySameSymbols` | services/PortfolioService.ts:74-77 | Tables with the same symbols in the same places answer every symbol lookup alike. |
| `Tables.ValueAtAppend` | services/PortfolioQueries.ts:36-45 | The value Σ amount × last price of two concatenated row lists is the sum of their values. |
| `Tables.ValueAtPermutation` | services/PortfolioQueries.ts:36-45 | The value of a set of positions does not depend on the order the rows come in. |
| `Tables.MatchLast` | services/PortfolioQueries.ts:36-45 | In two lists holding the same elements, the last element of the first occurs somewhere in the second, and the rest of the two lists still hold the same elements. |
| `DolarMep.FetchMepExchangeRate` | services/DolarMEP.tsx:6-24 | A filled cache answers without fetching. An empty cache fetches: on success it stores and returns the renamed fields, and on failure it throws and stays empty. |
| `DolarMep.FilledCacheIsPermanent` | services/DolarMEP.tsx:7-23 | Once the cache is filled, no later call changes it. |
| `DolarMep.CacheHoldsFirstSuccess` | services/DolarMEP.tsx:7-23 | Starting empty, the cache after any run of calls holds exactly the first successful answer, or nothing if every fetch failed. |
| `IolService.SetTokenData` | services/IolService.tsx:75-83 | Storing a token sets the Authorization header to `Bearer ` followed by the access token, and the expiry to now + expires_in × 1000 ms. It writes both tokens to the secure store and the refresh token to the instance, and leaves the interceptor as it was. |
| `IolService.NewSession` | services/IolService.tsx:6-17 | A freshly constructed service has no Authorization header, no interceptor and an empty refresh token, and its token counts as expired at every time from the epoch on. |
| `IolService.NeedsRefresh` | services/IolService.tsx:22 | A definition, with no contract of its own: the interceptor's test, under which the access token counts as expired from its expiry instant on. `NewSession`, `InterceptRequest` and `RefreshedTokenIsFresh` state properties in its terms. |
| `IolService.Authenticate` | services/IolService.tsx:30-54 | Login succeeds exactly when the token request does. It then installs the answered tokens: the `Bearer` header, the instance's refresh token, and both tokens in the secure store. It also installs the interceptor and sets the expiry from the answer. This is the login when its POST is not held up by the interceptor (see Findings). |
| `IolService.HasRefreshToken` | services/IolService.tsx:58-59 | A definition, with no contract of its own: the stored refresh token counts as present when it is neither missing nor empty, the test `refreshTokenIfNeeded` makes before its POST. `RefreshTokenIfNeeded`, `InterceptRequest`, `ExpiredRefreshNeverFinishes` and `ExpiredLoginWithoutTokenFails` state properties in its terms. |
| `IolService.RefreshTokenIfNeeded` | services/IolService.tsx:56-72 | A refresh fails with "No refresh token stored" when the store has no non-empty refresh token. It succeeds exactly when there is one and the request succeeds. It then installs the new tokens (the `Bearer` header, the instance's refresh token, and both tokens in the secure store) and the new expiry, and leaves the interceptor as it was. This is the refresh whose POST bypasses the interceptor (see Findings). |
| `IolService.InterceptRequest` | services/IolService.tsx:20-26 | The corrected interceptor. It lets the request out with the session untouched unless it is installed and the token has expired. Then it succeeds exactly when a refresh token is stored and the refresh answers, and a success installs the answered tokens whatever their lifetime. When the answered lifetime is positive, the token is then no longer expired at that instant. |
| `IolService.RefreshedTokenIsFresh` | services/IolService.tsx:22-24 | After a successful refresh with positive lifetime, the interceptor does not refresh again at the same instant, and does refresh once the lifetime has elapsed. |
| `IolService.InterceptAsWritten` | services/IolService.tsx:21-24 | A definition, with no contract of its own: the interceptor as the source installs it. On an expired token it awaits the refresh as written, following at most `depth` nested requests, and is `Pending` when they run out. `ExpiredRefreshNeverFinishes` and `AsWrittenAgreesOutsideTheLoop` state properties in its terms. |
| `IolService.RefreshAsWritten` | services/IolService.tsx:56-72 | A definition, with no contract of its own: the refresh as written. It reads the stored token, then sends its POST through the same interceptor before storing the answer. `ExpiredRefreshNeverFinishes`, `ExpiredLoginWithoutTokenFails` and `AsWrittenAgreesOutsideTheLoop` state properties in its terms. |
| `IolService.AuthenticateAsWritten` | services/IolService.tsx:30-54 | A definition, with no contract of its own: the login as written, whose password POST passes the interceptor an earlier login installed. `ExpiredLoginWithoutTokenFails`, `AsWrittenAgreesOutsideTheLoop` and `FirstLoginFinishes` state properties in its terms. |
| `IolService.ExpiredRefreshNeverFinishes` | services/IolService.tsx:21-24 | As written, once the interceptor is installed and the token has expired, a refresh with a stored refresh token never finishes: each refresh POST passes the interceptor and starts another refresh, however many nested requests are followed. Every request through the client hangs the same way. |
| `IolService.ExpiredLoginWithoutTokenFails` | services/IolService.tsx:38-59 | As written, with the interceptor installed, the token expired and no refresh token stored, a repeat login fails with "No refresh token stored", whatever the token endpoint would answer. |
| `IolService.AsWrittenAgreesOutsideTheLoop` | services/IolService.tsx:20-72 | Without the interceptor, or with an unexpired token, the interceptor, the refresh and the login as written finish with exactly the corrected results. |
| `IolService.FirstLoginFinishes` | services/IolService.tsx:30-54 | As written, the first login of a fresh service finishes with the corrected result, since no interceptor is installed yet. |
| `IolService.ToLower` | services/IolService.tsx:93 | Lower-casing keeps the length and maps A–Z to a–z, leaving other characters as they are. |
| `IolService.Contains` | services/IolService.tsx:93 | `includes` holds exactly when the part occurs in the string at some offset. |
| `IolService.OccursInTail` | services/IolService.tsx:93 | An occurrence in a string's tail is an occurrence one place further in the string, and any occurrence is at the start or in the tail. |
| `IolService.IsPeso` | services/IolService.tsx:93 | A currency name counts as peso exactly when some stretch of it lower-cases to "peso". |
| `IolService.LowerOccurrences` | services/IolService.tsx:93 | "peso" occurs in the lower-cased name at an offset exactly when the name's stretch at that offset lower-cases to "peso". |
| `IolService.LowerOfSlice` | services/IolService.tsx:93 | Lower-casing a stretch of a string gives that stretch of the lower-cased string. |
| `IolService.NormaliseAsset` | services/IolService.tsx:91-119 | Peso bonds, notes and letters are divided by 100, and no other asset is. Peso assets keep their peso figures and derive dollars by dividing by the buy rate. Other assets keep their dollar figures and derive pesos by multiplying by the sell rate. Without a rate both currencies show the same figure. |
| `IolService.NormaliseAssets` | services/IolService.tsx:91 | The positions map produces one normalised asset per broker asset, in order. |
| `IolService.GetPortfolio` | services/IolService.tsx:86-125 | A failed positions request throws before the rate is looked up, and a failed rate lookup throws too. Once the positions answer, the cache ends as the rate lookup leaves it. On success every asset is normalised with the cached rate. |
| `IolService.GetOperations` | services/IolService.tsx:129-144 | The operations call succeeds exactly when the request does, and renames each broker operation field by field, in order. |
| `IolService.PesoPrefixIsPeso` | services/IolService.tsx:93 | Any currency name starting with "peso" passes the lower-cased "includes peso" test. |
| `IolService.PesoNameIsPeso` | services/IolService.tsx:93 | One example: the broker's peso currency name `peso_Argentino` passes the "includes peso" test. |
| `IolService.LowerHasNoP` | services/IolService.tsx:93 | Lower-casing a name with no p or P yields no p. |
| `IolService.NoPNoPeso` | services/IolService.tsx:93 | A name without a p cannot contain "peso". |
| `IolService.DollarNameIsNotPeso` | services/IolService.tsx:99 | One example: the dollar currency name `dolares_EstadosUnidos` fails the "includes peso" test. |
| `PortfolioService.ClassificationIsExact` | services/PortfolioService.ts:60-69 | Buy types are exactly Compra, Suscripción FCI and Suscripción OTC, and sell types exactly Venta, Rescate FCI and Rescate FCI OTC. No type is both. |
| `PortfolioService.ResolvePrice` | services/PortfolioService.ts:13-31 | The operated price (0 when missing) is the peso price for peso_Argentino and the dollar price otherwise. The two figures always agree through the MEP sell rate (1 without a rate). |
| `PortfolioService.StoreOperation` | services/PortfolioService.ts:7-56 | A failed symbol lookup aborts before the rate is touched; once the lookup answers, the cache ends as the rate lookup leaves it. Exactly one ledger record is appended when the lookup, the rate and the INSERT all succeed, and none otherwise. The record carries the trade's fields, quantity 0 when missing, and prices that agree through the sell rate. |
| `PortfolioService.WeightedAverage` | services/PortfolioService.ts:103-115 | Buying at the cost already held keeps that cost. Adding a non-negative quantity to a non-negative holding moves the average cost towards the trade price and never past it. |
| `PortfolioService.AverageBetween` | services/PortfolioService.ts:106-115 | The weighted average of the old cost and the trade price lies between the two, and equals them when they agree. |
| `PortfolioService.WeightedAverageKeepsCost` | services/PortfolioService.ts:103-115 | The new quantity times the new average cost equals the old cost plus the purchase cost; the average is 0 when the quantity comes to 0. |
| `PortfolioService.Clamp` | services/PortfolioService.ts:134-135 | The floored quantity is never negative, never below the raw difference, and is either 0 or that difference. |
| `PortfolioService.Bought` | services/PortfolioService.ts:101-130 | A bought row keeps its id, symbol, description, type and flag, holds the bought quantity more, and is last priced at the trade price as of now. |
| `PortfolioService.Sold` | services/PortfolioService.ts:132-148 | A sold row changes only quantity and date. Its quantity drops by the amount sold but not below zero. |
| `PortfolioService.UpdatePortfolio` | services/PortfolioService.ts:59-151 | A trade keeps the key invariant and never moves, rekeys or renames a row. A type that is neither buy nor sell changes nothing. On an unheld symbol a buy appends one row and anything else changes nothing. On a held symbol no row is added. |
| `PortfolioService.HeldRowAfter` | services/PortfolioService.ts:97-149 | The first row holding the symbol becomes the bought row on a buy and the sold row on a sell, and is unchanged otherwise. |
| `PortfolioService.FirstBuyInserts` | services/PortfolioService.ts:80-94 | A first buy appends one row with the next id, the bought quantity, and the trade price as both cost and last price; that row is now the symbol's first. |
| `PortfolioService.OnlyFirstMatchChanges` | services/PortfolioService.ts:98 | With unique ids, a trade on a held symbol changes only the first row holding it, even if later rows share the symbol. |
| `PortfolioService.BuyOnHeldSymbol` | services/PortfolioService.ts:101-130 | A buy on a held symbol adds the quantity, sets each currency's cost to the weighted average of the old cost and the trade price, and sets the last price to the trade price. |
| `PortfolioService.BoughtRowCost` | services/PortfolioService.ts:103-115 | After a buy, quantity × average cost is the old cost plus the purchase cost in each currency, or the cost is 0 when the quantity is 0. |
| `PortfolioService.SellOnHeldSymbol` | services/PortfolioService.ts:132-148 | A sell lowers the quantity by the amount sold, floored at 0, and leaves average cost and last price as they were. |
| `PortfolioService.SumQtyPositive` | services/PortfolioService.ts:103 | Quantities of positive fills add up to a positive total. |
| `PortfolioService.SumCostUnfold` | services/PortfolioService.ts:106-112 | The total quantity and cost of a run of fills are the first fill's plus the rest's. |
| `PortfolioService.UpdateKeepsLookup` | services/PortfolioService.ts:97-98 | A trade on a held symbol leaves that symbol's first row where it was. |
| `PortfolioService.BoughtAddsCost` | services/PortfolioService.ts:103-115 | On a non-negative holding, a positive buy adds its quantity and its cost in each currency to the row's cost basis. |
| `PortfolioService.BuyStep` | services/PortfolioService.ts:101-130 | A buy on a held symbol keeps the key invariant and the lookup, and turns that row into the bought row. |
| `PortfolioService.BuyOfFill` | services/PortfolioService.ts:60-71 | A purchase fill read as a trade is a buy of the fill's quantity. |
| `PortfolioService.FillStep` | services/PortfolioService.ts:101-130 | Each buy on a held symbol adds its quantity and its cost to that row's quantity and cost basis. |
| `PortfolioService.BuysAccumulate` | services/PortfolioService.ts:101-130 | After a run of positive buys on a held symbol, the row holds the sum of the quantities, and its cost basis has grown by the sum of the purchase costs. |
| `PortfolioService.FirstFillInserts` | services/PortfolioService.ts:80-94 | A first buy creates the symbol's row with the fill's quantity and a cost basis equal to the fill's cost. |
| `PortfolioService.UnitCost` | services/PortfolioService.ts:114-115 | On a positive holding, the average cost is the cost basis divided by the quantity. |
| `PortfolioService.AverageCostOfBuys` | services/PortfolioService.ts:80-130 | Starting from an unheld symbol, a run of positive buys leaves one row whose quantity is the total bought and whose average cost in each currency is Σ qᵢ·pᵢ / Σ qᵢ. |
| `PortfolioService.SellStep` | services/PortfolioService.ts:132-148 | A sell on a held symbol keeps the key invariant and the lookup, and turns that row into the sold row. |
| `PortfolioService.SellsTrackRow` | services/PortfolioService.ts:132-148 | A run of sells changes the symbol's first row to the result of selling each quantity in turn, and keeps the key invariant and the lookup. |
| `PortfolioService.SoldAllKeepsCost` | services/PortfolioService.ts:132-148 | A run of non-negative sells keeps average cost and last price, and leaves max(0, quantity − Σ sold). |
| `PortfolioService.ApplySellsUnfold` | services/PortfolioService.ts:132-148 | A run of sells is its first sell followed by the rest. |
| `PortfolioService.ClampThenSubtract` | services/PortfolioService.ts:134-135 | Flooring at 0 after each of two sells gives the same as flooring once after both. |
| `PortfolioService.SumRealNonNegative` | services/PortfolioService.ts:134 | Non-negative sold quantities add up to a non-negative total. |
| `PortfolioService.AaplBuysExample` | services/PortfolioService.ts:101-130 | Buying 10 at 100 USD then 5 at 130 USD holds 15 at an average 110 USD (110 000 ARS at 1000 ARS per USD). |
| `PortfolioService.SellOnce` | services/PortfolioService.ts:132-148 | One sell on a held symbol keeps the lookup and leaves the row with max(0, quantity − sold) at its old average cost. |
| `PortfolioService.AaplSellExample` | services/PortfolioService.ts:132-148 | Then selling 5 leaves 10, still at an average of 110 USD and 110 000 ARS. |
| `PortfolioService.FindBySymbol` | services/PortfolioService.ts:172 | The broker lookup finds nothing exactly when no broker asset has the symbol. Otherwise it finds the asset at the first position holding the symbol, so a repeated symbol reads its first entry. |
| `PortfolioService.FirstAssetWithSymbol` | services/PortfolioService.ts:172 | `find` returns the first broker asset with the symbol. |
| `PortfolioService.RefreshAll` | services/PortfolioService.ts:173-184 | Each row is refreshed on its own, in place. |
| `PortfolioService.UpdateWhereSymbol` | services/PortfolioService.ts:179-184 | UPDATE ... WHERE symbol sets the last prices of every row with that symbol and of no other. |
| `PortfolioService.SnapshotTotalIsRefreshedValue` | services/PortfolioService.ts:164-194 | The snapshot total is the value Σ amount × last price of the table after the snapshot's updates. |
| `PortfolioService.RefreshedRowPrice` | services/PortfolioService.ts:172-193 | For each row, the price the snapshot values it at is the last price the snapshot's UPDATE leaves on it, and its quantity is untouched. |
| `PortfolioService.SnapshotWithoutMatchesUsesLastPrice` | services/PortfolioService.ts:189-193 | When the broker reports none of the held symbols, the snapshot is the stored value of the table. |
| `PortfolioService.RefreshOneSymbol` | services/PortfolioService.ts:173-184 | One UPDATE ... WHERE symbol with the broker's figures refreshes every row of that symbol; a symbol the broker lacks leaves the rows alone. |
| `PortfolioService.NothingSeenIsUnchanged` | services/PortfolioService.ts:156-158 | Before the loop no row has been refreshed. |
| `PortfolioService.SeenSymbolsStep` | services/PortfolioService.ts:167-168 | Each iteration adds its row's symbol to those already processed. |
| `PortfolioService.AllSeenIsRefreshAll` | services/PortfolioService.ts:167-194 | After the loop every row has been refreshed from the broker. |
| `PortfolioService.SnapshotTotalStep` | services/PortfolioService.ts:186-193 | Each iteration adds amount × snapshot price of its row to the running totals. |
| `PortfolioService.SnapshotRowFacts` | services/PortfolioService.ts:167-194 | One iteration moves the refreshed table and both running totals from k rows processed to k + 1. |
| `PortfolioService.SnapshotRow` | services/PortfolioService.ts:167-194 | One loop iteration updates the table and both totals as the reference definitions say for the row processed. |
| `PortfolioService.FailingUpdate` | services/PortfolioService.ts:172-184 | An UPDATE can fail only for a row whose symbol the broker reports, since no UPDATE is sent for the others. |
| `PortfolioService.RowsDone` | services/PortfolioService.ts:167-184 | The loop gets through every row exactly when no UPDATE fails, and otherwise stops at the failing one. |
| `PortfolioService.SavePortfolioValueSnapshot` | services/PortfolioService.ts:154-207 | A failed positions read or broker call throws before anything is written. Otherwise the rows up to a failing UPDATE, or all of them, take the broker's figures as last prices, and a failing UPDATE leaves them so. The call succeeds exactly when the reads, every UPDATE and the INSERT succeed. It then appends exactly one PortfolioValue: Σ amount × (broker purchase price if reported, else last price) per currency, dated now. Any failure appends nothing. |
| `SymbolOrder.SymbolLeReflexive` | services/PortfolioQueries.ts:105 | Every symbol sorts with itself. |
| `SymbolOrder.SymbolLeTotal` | services/PortfolioQueries.ts:105 | Any two symbols are comparable. |
| `SymbolOrder.SymbolLeTransitive` | services/PortfolioQueries.ts:105 | The symbol order is transitive. |
| `SymbolOrder.SymbolLeAntisymmetric` | services/PortfolioQueries.ts:105 | Two symbols each sorting before the other are equal. |
| `SymbolOrder.SortedIsPairwise` | services/PortfolioQueries.ts:105 | In a listing sorted neighbour by neighbour, every earlier symbol sorts before every later one. |
| `SymbolOrder.InsertBySymbol` | services/PortfolioQueries.ts:105 | Inserting into a sorted listing keeps it sorted and adds exactly that row. |
| `SymbolOrder.SortBySymbol` | services/PortfolioQueries.ts:102-107 | `ORDER BY symbol ASC` yields the same rows, as a multiset, sorted by symbol. |
| `SymbolOrder.SortKeepsRows` | services/PortfolioQueries.ts:102-107 | The sorted listing has as many rows as the table, loses none and invents none. |
| `PortfolioQueries.ToItem` | services/PortfolioQueries.ts:108-117 | A listed item copies symbol, amount, costs, last prices, date and description from its row. |
| `PortfolioQueries.ToItems` | services/PortfolioQueries.ts:108 | Rows map to items one for one, in order. |
| `PortfolioQueries.GetAllPortfolioItems` | services/PortfolioQueries.ts:100-122 | A failed read yields the empty list. Otherwise the listing holds, as a multiset, exactly the items of the table's rows, ascending by symbol. |
| `PortfolioQueries.ItemsOfSameRows` | services/PortfolioQueries.ts:102-117 | Listing a rearrangement of the rows gives an item for each row and nothing else. |
| `PortfolioQueries.ToItemsPermutation` | services/PortfolioQueries.ts:102-117 | Rows that are a rearrangement of each other list as items that are a rearrangement of each other. |
| `PortfolioQueries.ToItemsAppend` | services/PortfolioQueries.ts:108 | Listing two runs of rows lists the first run's items, then the second's. |
| `PortfolioQueries.ItemsValueOfRows` | services/PortfolioQueries.ts:39-45 | Summing amount × last price over the items equals the value of the rows they come from. |
| `PortfolioQueries.ListingValueIsTableValue` | services/PortfolioQueries.ts:27-45 | The total computed over the sorted listing is the value of the table. |
| `PortfolioQueries.LatestIndex` | services/PortfolioQueries.ts:10-16 | `ORDER BY date DESC LIMIT 1` picks a snapshot whose date no other exceeds (the first such on ties). |
| `PortfolioQueries.SecondLatestIndex` | services/PortfolioQueries.ts:73-79 | The second row of `ORDER BY date DESC LIMIT 2` is a snapshot other than the latest, not newer than it, and at least as new as every other. |
| `PortfolioQueries.LatestOfRest` | services/PortfolioQueries.ts:73-79 | The latest of the snapshots left once the latest is taken out sits, among all snapshots, at a position other than the latest's, and no other snapshot but the latest is newer. |
| `PortfolioQueries.Without` | services/PortfolioQueries.ts:73-79 | Taking the latest snapshot out keeps every other one, in order. |
| `PortfolioQueries.GetPreviousPortfolioValue` | services/PortfolioQueries.ts:71-95 | A previous value exists exactly when the read succeeds and there are at least two snapshots. It is a snapshot at a position other than the latest one's, no newer than the latest, and at least as new as every other. |
| `PortfolioQueries.GetLatestPortfolioValue` | services/PortfolioQueries.ts:7-66 | An existing snapshot with the greatest date is returned and nothing is written. With no snapshot and no position the answer is null. With no snapshot but positions, the table's value (Σ amount × last price per currency, dated now) is inserted and returned. Any failure answers null and writes nothing. |
| `PortfolioQueries.LatestIsStable` | services/PortfolioQueries.ts:7-66 | Asking twice with something to value answers from the stored snapshots the second time, without writing again. |
| `Database.CreateIfNotExists` | app/database.ts:5-67 | The six tables exist afterwards; a table already present keeps its columns, and a missing one gets the CREATE TABLE columns. |
| `Database.LoadDatabase` | app/database.ts:4-84 | Loading creates the missing tables. It appends `openPosition` to `Portfolio` exactly when `table_info` lacks it, existing rows then read its default (false), and nothing else changes. |
| `Database.LoadDatabaseIdempotent` | app/database.ts:4-84 | Loading an already loaded store changes nothing. |
| `Database.IsPortfolioEmpty` | app/database.ts:91-96 | The table counts as empty exactly when it holds no row. |
| `Database.SeedRow` | app/database.ts:109-124 | A seeded row copies the broker's symbol, description, type, quantity and purchase prices, takes the purchase prices as last prices, is dated now and is not flagged open. |
| `Database.InsertAll` | app/database.ts:108-125 | Inserting the broker positions one by one appends one seeded row per position, in order, with consecutive fresh ids, and keeps the key invariant. |
| `Database.Attempted` | app/database.ts:108-129 | When an INSERT throws, the loop stops there: with a failure at a position inside the list exactly the inserts before it are made, and otherwise all of them. |
| `Database.PopulatePortfolioTable` | app/database.ts:101-130 | A failed broker call changes nothing. Otherwise the positions up to the first failing INSERT are appended as seeded rows, and every error is swallowed. |
| `Database.InitializePortfolio` | app/database.ts:135-145 | A table with rows is left alone. An empty table is populated, with every failure swallowed. A failed broker call leaves it empty. Otherwise it ends up holding exactly the seeded rows for the positions before the first failing INSERT, or for all of them, under consecutive fresh ids. |
| `Database.InitializeOnce` | app/database.ts:135-145 | Once an initialisation has stored a row, later ones leave the table alone whatever the broker answers. |
| `Database.PopulateKeepsDuplicates` | app/database.ts:108-125 | Two broker positions with the same symbol become two rows with that symbol and different ids. |

## Left out

- HTTP, SecureStore, SQLite and `async`/`await` are inputs to the model. Each outcome is an `Option`, a `Result` or a `bool` parameter, and interleavings of concurrent calls are not modelled.
- `IolService.ToLower` covers ASCII only; JavaScript's `toLowerCase` also folds non-ASCII letters. The broker's currency names are ASCII.
- Floating point is modelled as exact `real` arithmetic. Rates must be positive where a division uses them (`ValidRate`, `ValidFetch`, `BuyDivisible`); JavaScript would produce `Infinity` or `NaN` for a zero rate.
- ISO date strings are integers. Ties between equal dates in `ORDER BY date DESC` are resolved towards the older row, where SQLite's order is unspecified.
- `enableInterceptor` installs a new interceptor on every successful login; the model keeps one flag, since repeated interceptors only repeat the same check.
- `PortfolioService.StoreOperation` does not model the ledger's AUTOINCREMENT id, only the appended record.
- `PortfolioService.UpdatePortfolio` inserts a first buy with empty description and type. The source's INSERT omits those two NOT NULL columns, so SQLite would reject it.
- `openPosition` is only created with its default (false); no code in these files sets it.
- `getTerminatedOperations`, `getSymbolInfo` and `logout` of services/IolService.tsx are outside this model; `getSymbolInfo` appears only through its answer, a parameter of `StoreOperation`.
- Console logging and `PRAGMA journal_mode = 'wal'` have no effect on the data and are not modelled.
- `PortfolioQueries.GetLatestPortfolioValue` treats a failing INSERT as writing nothing, and a failed positions read like an empty table (both answer null).
- `PortfolioService.UpdatePortfolio` has no failure input. Nothing catches in `updatePortfolio`: a failing SELECT, INSERT or UPDATE throws out of the call before anything is written, so the table stays as it was.
- `Database.LoadDatabase` has no failure input. A failing CREATE batch, `table_info` read or ALTER throws out of `loadDatabase`. Statements before it in the batch keep their effect, and the model does not follow that.
- `PortfolioService.SavePortfolioValueSnapshot` takes the outcome of `getPortfolio` (services/PortfolioService.ts:161) as an input and does not return the exchange-rate cache. That call looks the MEP rate up through the shared cache and can fill it; `IolService.GetPortfolio` states that effect, but this model drops it.
- `Database.PopulatePortfolioTable` takes the outcome of `getPortfolio` (app/database.ts:104) as an input and, likewise, does not return the exchange-rate cache that call can fill.
- `Database.InitializePortfolio` and `Database.IsPortfolioEmpty` have no failure input for the COUNT. When it fails, `initializePortfolio` rethrows with the table unchanged.
- services/PortfolioService.ts calls `db.runAsync` with a SELECT (line 74) and `db.executeAsync` (lines 37, 81, 117, 137, 179, 197). The model gives these calls their evident SQL meaning: the SELECT answers the matching rows and `executeAsync` runs its statement. The handle the app passes is expo-sqlite's `SQLiteDatabase` (app/database.ts:1-4, app/(tabs)/settings.tsx:12). Its `runAsync` answers only `{lastInsertRowId, changes}`, and it has no `executeAsync` at all, so as written these calls would not do what their SQL says.

## Findings

| source | as written | input that shows it | evidently intended | confidence | as-written member | corrected member |
|---|---|---|---|---|---|---|
| services/IolService.tsx:21-24 | The interceptor awaits `refreshTokenIfNeeded`, whose token POST (line 61) goes through `this.client` and so through the same interceptor, before the expiry is updated. | Interceptor installed, now ≥ `accessTokenExpiry`, refresh token stored: the refresh never finishes, and neither does any request through the client. Without a stored refresh token, a repeat login fails with "No refresh token stored". | The refresh POST bypasses the interceptor, so the new tokens are stored and the request goes out. | high; not executed | `IolService.ExpiredRefreshNeverFinishes`, `IolService.ExpiredLoginWithoutTokenFails` | `IolService.InterceptRequest`, `IolService.RefreshedTokenIsFresh` |


=== FILE: database.dfy ===
/** Bootstrap of the local store (app/database.ts): the schema created on
    load with its one migration, and the first fill of `Portfolio` from the
    broker. The schema is a map from table name to column names; the
    `Portfolio` rows are the table of `Tables`. */
module Database {
  import opened Wrappers
  import opened Tables
  import opened IolService

  type Schema = map<string, seq<string>>

  /** The six tables `loadDatabase` creates when absent, with the columns of
      their CREATE TABLE statements. */
  const CreatedTables: map<string, seq<string>> := map[
    "Expenses" := ["id", "name", "amountUSD", "amountARS", "date"],
    "Income" := ["id", "name", "amountUSD", "amountARS", "date"],
    "GrossIncome" := ["id", "amountUSD", "amountARS", "date"],
    "Portfolio" := ["id", "symbol", "description", "type", "amount", "ppcARS", "ppcUSD",
                    "lastPriceARS", "lastPriceUSD", "date"],
    "PortfolioValue" := ["id", "priceUSD", "priceARS", "date"],
    "Operations" := ["id", "numero", "fecha", "tipo", "simbolo", "cantidad", "priceARS", "priceUSD"]
  ]

  const OpenPosition := "openPosition"

  datatype Store = Store(schema: Schema, portfolio: PortfolioTable)

  /** CREATE TABLE IF NOT EXISTS for each of the six tables: a table already
      present keeps its columns, whatever they are. */
  function CreateIfNotExists(s: Schema): (s': Schema)
    ensures s'.Keys == s.Keys + CreatedTables.Keys
    ensures forall name | name in s :: s'[name] == s[name]
    ensures forall name | name in CreatedTables && name !in s :: s'[name] == CreatedTables[name]
  {
    map name | name in s.Keys + CreatedTables.Keys :: if name in s then s[name] else CreatedTables[name]
  }

  /** `loadDatabase`: create the missing tables, then add `openPosition`
      (BOOLEAN DEFAULT 0) to `Portfolio` unless `PRAGMA table_info` already
      lists it. Rows present when the column is added read its default. */
  function LoadDatabase(db: Store): (r: Store)
    ensures r.schema.Keys == db.schema.Keys + CreatedTables.Keys
    ensures forall name | name in db.schema && name != "Portfolio" :: r.schema[name] == db.schema[name]
    ensures forall name | name in CreatedTables && name !in db.schema && name != "Portfolio" ::
              r.schema[name] == CreatedTables[name]
    // afterwards the column is there, added at the end only if it was missing
    ensures OpenPosition in r.schema["Portfolio"]
    ensures var before := CreateIfNotExists(db.schema)["Portfolio"];
            r.schema["Portfolio"] == if OpenPosition in before then before else before + [OpenPosition]
    // the rows keep everything but take the default when the column is new
    ensures r.portfolio.nextId == db.portfolio.nextId && |r.portfolio.rows| == |db.portfolio.rows|
    ensures forall i | 0 <= i < |db.portfolio.rows| ::
              r.portfolio.rows[i] == (if OpenPosition in CreateIfNotExists(db.schema)["Portfolio"]
                                      then db.portfolio.rows[i]
                                      else db.portfolio.rows[i].(openPosition := false))
  {
    var s := CreateIfNotExists(db.schema);
    var columns := s["Portfolio"];
    if OpenPosition in columns then Store(s, db.portfolio)
    else
      var rows := seq(|db.portfolio.rows|, i requires 0 <= i < |db.portfolio.rows| =>
                      db.portfolio.rows[i].(openPosition := false));
      Store(s[("Portfolio") := columns + [OpenPosition]], db.portfolio.(rows := rows))
  }

  /** Loading an already loaded store changes nothing: every table exists
      and the migration sees its column. */
  lemma LoadDatabaseIdempotent(db: Store)
    ensures LoadDatabase(LoadDatabase(db)) == LoadDatabase(db)
  {
    var once := LoadDatabase(db);
    assert CreateIfNotExists(once.schema) == once.schema;
    assert OpenPosition in once.schema["Portfolio"];
  }

  /** `isPortfolioEmpty`: `SELECT COUNT(*)` is zero. */
  function IsPortfolioEmpty(t: PortfolioTable): (empty: bool)
    ensures empty <==> forall row :: row !in t.rows
  {
    if |t.rows| == 0 then true
    else
      assert t.rows[0] in t.rows;
      false
  }

  /** The row `populatePortfolioTable` inserts for a broker position: the
      purchase price is copied as is and also taken as the last price, not
      the broker's latest price; the id comes from the table on insertion. */
  function SeedRow(a: BrokerAsset, now: int): (row: PortfolioRow)
    ensures row.symbol == a.symbol && row.description == a.description && row.instrumentType == a.instrumentType
    ensures row.amount == a.amount && row.date == now && !row.openPosition
    ensures row.ppcARS == a.ppcARS && row.ppcUSD == a.ppcUSD
    ensures row.lastPriceARS == row.ppcARS && row.lastPriceUSD == row.ppcUSD
  {
    PortfolioRow(0, a.symbol, a.description, a.instrumentType, a.amount,
                 a.ppcARS, a.ppcUSD, a.ppcARS, a.ppcUSD, now, false)
  }

  /** One INSERT per position, in order, with no check for a symbol already
      present. */
  function InsertAll(t: PortfolioTable, items: seq<BrokerAsset>, now: int): (t': PortfolioTable)
    ensures |t'.rows| == |t.rows| + |items| && t'.nextId == t.nextId + |items|
    ensures t'.rows[..|t.rows|] == t.rows
    ensures forall i | 0 <= i < |items| :: t'.rows[|t.rows| + i] == SeedRow(items[i], now).(id := t.nextId + i)
    ensures WellFormed(t) ==> WellFormed(t')
    decreases |items|
  {
    if |items| == 0 then t
    else
      var next := Insert(t, SeedRow(items[0], now));
      var r := InsertAll(next, items[1..], now);
      assert forall i | 1 <= i < |items| :: r.rows[|t.rows| + i] == SeedRow(items[i], now).(id := t.nextId + i) by {
        forall i | 1 <= i < |items|
          ensures r.rows[|t.rows| + i] == SeedRow(items[i], now).(id := t.nextId + i)
        {
          assert items[1..][i - 1] == items[i];
        }
      }
      assert r.rows[..|next.rows|][..|t.rows|] == r.rows[..|t.rows|];
      r
  }

  /** How many of `count` inserts happen when the one at `failAt`, if any,
      throws: the loop stops there and the error is swallowed. */
  function Attempted(count: nat, failAt: Option<nat>): (n: nat)
    ensures n <= count
    ensures failAt.None? ==> n == count
    // the loop stops at the failing INSERT, and a failure past the end never happens
    ensures failAt.Some? && failAt.value < count ==> n == failAt.value
    ensures failAt.Some? && failAt.value >= count ==> n == count
  {
    match failAt
    case None => count
    case Some(k) => if k < count then k else count
  }

  /** `populatePortfolioTable`: `fetched` is the `getPortfolio` outcome and
      `failAt` the position of the first INSERT that fails, if one does.
      Every failure is swallowed, leaving the inserts made so far. */
  function PopulatePortfolioTable(t: PortfolioTable, fetched: Result<seq<BrokerAsset>>,
                                  failAt: Option<nat>, now: int): (t': PortfolioTable)
    ensures WellFormed(t) ==> WellFormed(t')
    ensures fetched.Failure? ==> t' == t
    ensures fetched.Success? ==>
              var n := Attempted(|fetched.value|, failAt);
              && |t'.rows| == |t.rows| + n
              && t'.rows[..|t.rows|] == t.rows
              && forall i | 0 <= i < n :: t'.rows[|t.rows| + i] == SeedRow(fetched.value[i], now).(id := t.nextId + i)
  {
    match fetched
    case Failure(_) => t
    case Success(items) => InsertAll(t, items[..Attempted(|items|, failAt)], now)
  }

  /** `initializePortfolio`: populate only a table with no rows. */
  function InitializePortfolio(t: PortfolioTable, fetched: Result<seq<BrokerAsset>>,
                               failAt: Option<nat>, now: int): (t': PortfolioTable)
    ensures WellFormed(t) ==> WellFormed(t')
    ensures |t.rows| > 0 ==> t' == t
    // an empty table is populated, with every failure swallowed
    ensures |t.rows| == 0 ==> t' == PopulatePortfolioTable(t, fetched, failAt, now)
    ensures |t.rows| == 0 && fetched.Failure? ==> t' == t
    ensures |t.rows| == 0 && fetched.Success? ==>
              var n := Attempted(|fetched.value|, failAt);
              && |t'.rows| == n
              && forall i | 0 <= i < n :: t'.rows[i] == SeedRow(fetched.value[i], now).(id := t.nextId + i)
    ensures |t.rows| == 0 && fetched.Success? && failAt.None? ==>
              && |t'.rows| == |fetched.value|
              && forall i | 0 <= i < |fetched.value| ::
                   t'.rows[i].symbol == fetched.value[i].symbol
                   && t'.rows[i].amount == fetched.value[i].amount
                   && t'.rows[i].ppcARS == t'.rows[i].lastPriceARS == fetched.value[i].ppcARS
                   && t'.rows[i].ppcUSD == t'.rows[i].lastPriceUSD == fetched.value[i].ppcUSD
  {
    if IsPortfolioEmpty(t) then
      var t' := PopulatePortfolioTable(t, fetched, failAt, now);
      assert |t.rows| == 0 ==> forall i | 0 <= i < |t'.rows| - |t.rows| :: t'.rows[i] == t'.rows[|t.rows| + i];
      t'
    else t
  }

  /** Once a first initialisation has stored a row, later ones leave the
      table alone, whatever the broker answers then. */
  lemma InitializeOnce(t: PortfolioTable, fetched: Result<seq<BrokerAsset>>, failAt: Option<nat>, now: int,
                       fetched': Result<seq<BrokerAsset>>, failAt': Option<nat>, later: int)
    requires |InitializePortfolio(t, fetched, failAt, now).rows| > 0
    ensures var once := InitializePortfolio(t, fetched, failAt, now);
            InitializePortfolio(once, fetched', failAt', later) == once
  {
  }

  /** Two broker positions with the same symbol become two rows with that
      symbol: the schema has no UNIQUE constraint and populate does not
      deduplicate. */
  lemma PopulateKeepsDuplicates(t: PortfolioTable, items: seq<BrokerAsset>, now: int, i: nat, j: nat)
    requires i < j < |items| && items[i].symbol == items[j].symbol
    ensures var t' := PopulatePortfolioTable(t, Success(items), None, now);
            t'.rows[|t.rows| + i].symbol == t'.rows[|t.rows| + j].symbol == items[i].symbol
            && t'.rows[|t.rows| + i].id != t'.rows[|t.rows| + j].id
  {
  }
}

=== FILE: dolar_mep.dfy ===
/** The MEP ("bolsa") exchange-rate cache of services/DolarMEP.tsx: one slot,
    filled by the first successful fetch and never cleared afterwards. The
    HTTP GET is a parameter: `None` when the request or the provider fails. */
module DolarMep {
  import opened Wrappers

  /** Pesos per dollar, in both directions, with the provider's timestamp. */
  datatype ExchangeRate = ExchangeRate(buyRate: real, sellRate: real, updatedAt: string)

  /** The provider's answer `{compra, venta, fechaActualizacion}`. */
  datatype RateResponse = RateResponse(compra: real, venta: real, fechaActualizacion: string)

  /** The module-level `exchangeRate` field; `None` is its initial `null`. */
  datatype RateCache = RateCache(exchangeRate: Option<ExchangeRate>)

  /** What one call leaves behind: the cache, the value returned or the error
      thrown, and whether the provider was contacted. */
  datatype RateCall = RateCall(cache: RateCache, result: Result<ExchangeRate>, fetched: bool)

  /** Rates a division can use. */
  predicate ValidRate(r: ExchangeRate) {
    r.buyRate > 0.0 && r.sellRate > 0.0
  }

  predicate ValidCache(c: RateCache) {
    c.exchangeRate.Some? ==> ValidRate(c.exchangeRate.value)
  }

  predicate ValidFetch(f: Option<RateResponse>) {
    f.Some? ==> f.value.compra > 0.0 && f.value.venta > 0.0
  }

  function FromResponse(resp: RateResponse): ExchangeRate {
    ExchangeRate(resp.compra, resp.venta, resp.fechaActualizacion)
  }

  /** `fetchMEPExchangeRate`. `fetch` is what the GET would yield; it is
      consulted only when the cache is empty. */
  function FetchMepExchangeRate(c: RateCache, fetch: Option<RateResponse>): (r: RateCall)
    // a filled cache answers without a fetch and stays as it is
    ensures c.exchangeRate.Some? ==>
              r.cache == c && r.result == Success(c.exchangeRate.value) && !r.fetched
    // an empty cache always fetches
    ensures c.exchangeRate.None? ==> r.fetched
    // a successful fetch fills the cache with the renamed fields and returns them
    ensures c.exchangeRate.None? && fetch.Some? ==>
              && r.cache.exchangeRate == Some(ExchangeRate(fetch.value.compra, fetch.value.venta, fetch.value.fechaActualizacion))
              && r.result == Success(r.cache.exchangeRate.value)
    // a failed fetch propagates and leaves the cache empty (no negative caching)
    ensures c.exchangeRate.None? && fetch.None? ==> r.result.Failure? && r.cache == c
    // the cache, once read back, is what the call returned
    ensures r.result.Success? ==> r.cache.exchangeRate == Some(r.result.value)
    ensures ValidCache(c) && ValidFetch(fetch) ==> ValidCache(r.cache)
  {
    match c.exchangeRate
    case Some(rate) => RateCall(c, Success(rate), false)
    case None =>
      match fetch
      case None => RateCall(c, Failure("Error fetching MEP exchange rate"), true)
      case Some(resp) =>
        var rate := FromResponse(resp);
        RateCall(RateCache(Some(rate)), Success(rate), true)
  }

  /** The cache after a run of calls, the i-th call seeing `fetches[i]`. */
  function RunCalls(c: RateCache, fetches: seq<Option<RateResponse>>): RateCache
    decreases |fetches|
  {
    if |fetches| == 0 then c
    else RunCalls(FetchMepExchangeRate(c, fetches[0]).cache, fetches[1..])
  }

  /** Reference definition: the first provider answer that succeeded. */
  function FirstSuccess(fetches: seq<Option<RateResponse>>): Option<RateResponse>
    decreases |fetches|
  {
    if |fetches| == 0 then None
    else if fetches[0].Some? then fetches[0]
    else FirstSuccess(fetches[1..])
  }

  /** Once filled, the cache never changes: there is no invalidation path. */
  lemma {:induction false} FilledCacheIsPermanent(c: RateCache, fetches: seq<Option<RateResponse>>)
    requires c.exchangeRate.Some?
    ensures RunCalls(c, fetches) == c
    decreases |fetches|
  {
    if |fetches| > 0 {
      FilledCacheIsPermanent(c, fetches[1..]);
    }
  }

  /** Starting empty, the cache holds exactly the first successful answer of
      any run of calls, and stays empty while every fetch fails. */
  lemma {:induction false} CacheHoldsFirstSuccess(fetches: seq<Option<RateResponse>>)
    ensures RunCalls(RateCache(None), fetches).exchangeRate ==
              (match FirstSuccess(fetches)
               case None => None
               case Some(resp) => Some(FromResponse(resp)))
    decreases |fetches|
  {
    if |fetches| > 0 {
      if fetches[0].Some? {
        FilledCacheIsPermanent(RateCache(Some(FromResponse(fetches[0].value))), fetches[1..]);
      } else {
        CacheHoldsFirstSuccess(fetches[1..]);
      }
    }
  }
}

=== FILE: iol_service.dfy ===
/** The broker gateway of services/IolService.tsx: access-token bookkeeping
    and the pure mappings applied to the broker's portfolio and operations
    answers. HTTP calls and SecureStore writes are inputs and fields: an
    `Option` answer is `None` when the request throws. */
module IolService {
  import opened Wrappers
  import opened DolarMep

  // ---------------------------------------------------------------- tokens

  /** The `/token` answer `{access_token, refresh_token, expires_in}`; the
      expiry is in seconds, timestamps are in milliseconds. */
  datatype TokenResponse = TokenResponse(accessToken: string, refreshToken: string, expiresIn: int)

  /** The two SecureStore entries the service writes and reads. */
  datatype SecureStore = SecureStore(accessToken: Option<string>, refreshToken: Option<string>)

  /** The service instance: the Authorization header, the fields
      `refreshToken` and `accessTokenExpiry`, whether the request interceptor
      is installed, and the secure store. */
  datatype Session = Session(
    authorization: Option<string>,
    refreshToken: string,
    accessTokenExpiry: int,
    interceptorEnabled: bool,
    store: SecureStore)

  /** A freshly constructed service: no Authorization header, no
      interceptor, an empty refresh token and expiry 0, so the token counts
      as expired at every time from the epoch on. */
  function NewSession(store: SecureStore): (s: Session)
    ensures s.authorization.None? && !s.interceptorEnabled && s.refreshToken == "" && s.store == store
    ensures forall now | now >= 0 :: NeedsRefresh(s, now)
  {
    Session(None, "", 0, false, store)
  }

  /** `setTokenData` at time `now`. */
  function SetTokenData(s: Session, data: TokenResponse, now: int): (s': Session)
    ensures s'.accessTokenExpiry - now == data.expiresIn * 1000
    ensures s'.store.refreshToken == Some(data.refreshToken) && s'.refreshToken == data.refreshToken
    ensures s'.store.accessToken == Some(data.accessToken)
    ensures s'.authorization.Some? && s'.interceptorEnabled == s.interceptorEnabled
    ensures s'.authorization == Some("Bearer " + data.accessToken)
  {
    s.(authorization := Some("Bearer " + data.accessToken),
       refreshToken := data.refreshToken,
       accessTokenExpiry := now + data.expiresIn * 1000,
       store := SecureStore(Some(data.accessToken), Some(data.refreshToken)))
  }

  /** The interceptor's test: the token has expired at `now`. */
  predicate NeedsRefresh(s: Session, now: int) {
    now >= s.accessTokenExpiry
  }

  /** `authenticate`: a password grant; `response` is the POST's answer. */
  function Authenticate(s: Session, response: Option<TokenResponse>, now: int): (r: Result<Session>)
    ensures r.Success? <==> response.Some?
    ensures r.Success? ==> r.value.interceptorEnabled
    ensures r.Success? ==> r.value.accessTokenExpiry == now + response.value.expiresIn * 1000
    // the answered tokens are installed: the Bearer header, the instance field and the secure store
    ensures r.Success? ==>
              && r.value.authorization == Some("Bearer " + response.value.accessToken)
              && r.value.refreshToken == response.value.refreshToken
              && r.value.store == SecureStore(Some(response.value.accessToken), Some(response.value.refreshToken))
  {
    match response
    case None => Failure("Error authenticating")
    case Some(data) => Success(SetTokenData(s, data, now).(interceptorEnabled := true))
  }

  /** A stored refresh token JavaScript counts as present (not null, not ""). */
  predicate HasRefreshToken(store: SecureStore) {
    store.refreshToken.Some? && store.refreshToken.value != ""
  }

  /** `refreshTokenIfNeeded`: a refresh-token grant using the token read from
      the secure store; `response` is the POST's answer. */
  function RefreshTokenIfNeeded(s: Session, response: Option<TokenResponse>, now: int): (r: Result<Session>)
    ensures !HasRefreshToken(s.store) ==> r == Failure("No refresh token stored")
    ensures r.Success? <==> HasRefreshToken(s.store) && response.Some?
    ensures r.Success? ==> r.value.accessTokenExpiry == now + response.value.expiresIn * 1000
                           && r.value.store.refreshToken == Some(response.value.refreshToken)
    ensures r.Success? ==>
              && r.value.authorization == Some("Bearer " + response.value.accessToken)
              && r.value.refreshToken == response.value.refreshToken
              && r.value.store.accessToken == Some(response.value.accessToken)
              && r.value.interceptorEnabled == s.interceptorEnabled
  {
    if !HasRefreshToken(s.store) then Failure("No refresh token stored")
    else match response
      case None => Failure("Error refreshing token")
      case Some(data) => Success(SetTokenData(s, data, now))
  }

  /** The request interceptor with the refresh POST kept off the
      intercepted path, which is what `enableInterceptor` evidently intends:
      an expired token is refreshed once, then the request goes out.
      `response` is what the refresh POST would answer. */
  function InterceptRequest(s: Session, response: Option<TokenResponse>, now: int): (r: Result<Session>)
    // without the interceptor, or with a valid token, the request goes out untouched
    ensures !s.interceptorEnabled || !NeedsRefresh(s, now) ==> r == Success(s)
    // an expired token must be refreshed: the request fails exactly when the refresh does
    ensures s.interceptorEnabled && NeedsRefresh(s, now) ==>
              (r.Success? <==> HasRefreshToken(s.store) && response.Some?)
    // a request that goes out carries the old session or the refreshed one
    ensures r.Success? ==> r.value == s || (response.Some? && r.value == SetTokenData(s, response.value, now))
    // a refresh that goes through installs the answered tokens, whatever their lifetime
    ensures s.interceptorEnabled && NeedsRefresh(s, now) && r.Success? ==>
              response.Some? && r.value == SetTokenData(s, response.value, now)
    // once installed, it lets a request out only with a token valid at `now`,
    // provided the answered lifetime is positive
    ensures s.interceptorEnabled && r.Success? && (response.Some? ==> response.value.expiresIn > 0) ==>
              !NeedsRefresh(r.value, now)
  {
    if s.interceptorEnabled && now >= s.accessTokenExpiry then RefreshTokenIfNeeded(s, response, now)
    else Success(s)
  }

  /** A refresh that the broker grants with a positive lifetime leaves a token
      that the interceptor does not refresh again at the same instant, and
      that it does refresh once the lifetime has elapsed. */
  lemma RefreshedTokenIsFresh(s: Session, response: Option<TokenResponse>, now: int)
    requires InterceptRequest(s, response, now).Success?
    requires s.interceptorEnabled && NeedsRefresh(s, now)
    requires response.Some? && response.value.expiresIn > 0
    ensures !NeedsRefresh(InterceptRequest(s, response, now).value, now)
    ensures NeedsRefresh(InterceptRequest(s, response, now).value, now + response.value.expiresIn * 1000)
  {
  }

  // ---------------------------------------- the interceptor as written

  /** How far a call through `this.client` gets: finished with a result, or
      still waiting once the allowed number of nested requests is used up. */
  datatype Outcome = Done(result: Result<Session>) | Pending

  /** The interceptor as the source installs it. On an expired token it
      awaits `refreshTokenIfNeeded`, whose POST goes out through
      `this.client` and so through this same interceptor, with the expiry
      not yet updated. `depth` bounds the nested requests followed.
      `Done(Success(s'))` lets the request out with session `s'`. */
  function InterceptAsWritten(s: Session, response: Option<TokenResponse>, now: int, depth: nat): Outcome
    decreases depth, 0
  {
    if !(s.interceptorEnabled && NeedsRefresh(s, now)) then Done(Success(s))
    else if depth == 0 then Pending
    else RefreshAsWritten(s, response, now, depth - 1)
  }

  /** `refreshTokenIfNeeded` as written: the stored token is read first, then
      the POST passes the interceptor before it is sent. */
  function RefreshAsWritten(s: Session, response: Option<TokenResponse>, now: int, depth: nat): Outcome
    decreases depth, 1
  {
    if !HasRefreshToken(s.store) then Done(Failure("No refresh token stored"))
    else
      match InterceptAsWritten(s, response, now, depth)
      case Pending => Pending
      case Done(gate) =>
        match gate
        case Failure(e) => Done(Failure(e))
        case Success(s1) =>
          match response
          case None => Done(Failure("Error refreshing token"))
          case Some(data) => Done(Success(SetTokenData(s1, data, now)))
  }

  /** `authenticate` as written: once an earlier login has installed the
      interceptor, the password POST passes it too. `refreshResponse` is what
      a refresh POST would answer. */
  function AuthenticateAsWritten(s: Session, response: Option<TokenResponse>,
                                 refreshResponse: Option<TokenResponse>, now: int, depth: nat): Outcome
  {
    match InterceptAsWritten(s, refreshResponse, now, depth)
    case Pending => Pending
    case Done(gate) =>
      match gate
      case Failure(e) => Done(Failure(e))
      case Success(s1) => Done(Authenticate(s1, response, now))
  }

  /** With the interceptor installed and the token expired, a refresh, and
      every request through the client, never finishes when a refresh token
      is stored: each refresh POST starts another refresh, however many
      nested requests are followed. */
  lemma {:induction false} ExpiredRefreshNeverFinishes(s: Session, response: Option<TokenResponse>, now: int, depth: nat)
    requires s.interceptorEnabled && NeedsRefresh(s, now) && HasRefreshToken(s.store)
    ensures RefreshAsWritten(s, response, now, depth) == Pending
    ensures InterceptAsWritten(s, response, now, depth) == Pending
    decreases depth
  {
    if depth > 0 {
      ExpiredRefreshNeverFinishes(s, response, now, depth - 1);
    }
  }

  /** With the interceptor installed, the token expired and no refresh token
      stored, a second login fails whatever the broker would answer. */
  lemma ExpiredLoginWithoutTokenFails(s: Session, response: Option<TokenResponse>,
                                      refreshResponse: Option<TokenResponse>, now: int, depth: nat)
    requires s.interceptorEnabled && NeedsRefresh(s, now) && !HasRefreshToken(s.store) && depth > 0
    ensures AuthenticateAsWritten(s, response, refreshResponse, now, depth) == Done(Failure("No refresh token stored"))
  {
    assert RefreshAsWritten(s, refreshResponse, now, depth - 1) == Done(Failure("No refresh token stored"));
  }

  /** Away from the loop, the source and the intended interceptor agree:
      without the interceptor, or with a valid token, every call finishes with
      the intended result. */
  lemma AsWrittenAgreesOutsideTheLoop(s: Session, response: Option<TokenResponse>,
                                      refreshResponse: Option<TokenResponse>, now: int, depth: nat)
    requires !(s.interceptorEnabled && NeedsRefresh(s, now))
    ensures InterceptAsWritten(s, refreshResponse, now, depth) == Done(InterceptRequest(s, refreshResponse, now))
    ensures RefreshAsWritten(s, refreshResponse, now, depth) == Done(RefreshTokenIfNeeded(s, refreshResponse, now))
    ensures AuthenticateAsWritten(s, response, refreshResponse, now, depth) == Done(Authenticate(s, response, now))
  {
  }

  /** A fresh service logs in with the password grant unhindered: the
      interceptor is installed only by that login. */
  lemma FirstLoginFinishes(store: SecureStore, response: Option<TokenResponse>,
                           refreshResponse: Option<TokenResponse>, now: int, depth: nat)
    ensures AuthenticateAsWritten(NewSession(store), response, refreshResponse, now, depth)
              == Done(Authenticate(NewSession(store), response, now))
  {
  }

  // ------------------------------------------------------- string helpers

  /** ASCII `toLowerCase`. */
  function ToLower(s: string): (r: string)
    ensures |r| == |s|
    ensures forall i | 0 <= i < |s| :: r[i] == (if 'A' <= s[i] <= 'Z' then (s[i] as int + 32) as char else s[i])
  {
    seq(|s|, i requires 0 <= i < |s| => LowerChar(s[i]))
  }

  function LowerChar(c: char): char {
    if 'A' <= c <= 'Z' then (c as int + 32) as char else c
  }

  /** `part` occurs in `s` starting at offset `i`. */
  predicate OccursAt(s: string, part: string, i: nat) {
    i + |part| <= |s| && s[i..i + |part|] == part
  }

  /** `s.includes(part)`, scanning from the left. */
  function Contains(s: string, part: string): (b: bool)
    ensures b <==> exists i: nat :: OccursAt(s, part, i)
    decreases |s|
  {
    if |s| > 0 then
      OccursInTail(s, part);
      OccursAt(s, part, 0) || Contains(s[1..], part)
    else OccursAt(s, part, 0)
  }

  /** An occurrence in `s[1..]` is an occurrence in `s` one place later. */
  lemma OccursInTail(s: string, part: string)
    requires |s| > 0
    ensures forall i: nat :: OccursAt(s[1..], part, i) <==> OccursAt(s, part, i + 1)
    ensures (exists i: nat :: OccursAt(s, part, i)) ==> OccursAt(s, part, 0) || exists i: nat :: OccursAt(s[1..], part, i)
  {
    forall i: nat
      ensures OccursAt(s[1..], part, i) <==> OccursAt(s, part, i + 1)
    {
      if i + |part| <= |s| - 1 {
        assert s[1..][i..i + |part|] == s[i + 1..i + 1 + |part|];
      }
    }
    if exists i: nat :: OccursAt(s, part, i) {
      var i: nat :| OccursAt(s, part, i);
      if i > 0 {
        assert OccursAt(s[1..], part, i - 1);
      }
    }
  }

  // --------------------------------------------------------- portfolio

  datatype Titulo = Titulo(simbolo: string, descripcion: string, tipo: string, moneda: string)

  /** One entry of the broker's `activos`. */
  datatype RawAsset = RawAsset(titulo: Titulo, ppc: real, ultimoPrecio: real, cantidad: real)

  /** The normalised position `getPortfolio` returns. */
  datatype BrokerAsset = BrokerAsset(
    symbol: string,
    description: string,
    instrumentType: string,
    ppcARS: real,
    ppcUSD: real,
    amount: real,
    latestPriceARS: real,
    latestPriceUSD: real)

  /** Instrument types the broker quotes per 100 nominal when in pesos. */
  const CentsScaledTypes: seq<string> := ["ObligacionesNegociables", "TitulosPublicos", "Letras"]

  /** The instrument trades in pesos: its lower-cased currency mentions "peso". */
  function IsPeso(moneda: string): (b: bool)
    ensures b <==> exists i: nat :: LowerOccursAt(moneda, "peso", i)
  {
    LowerOccurrences(moneda, "peso");
    Contains(ToLower(moneda), "peso")
  }

  /** `part` matches the window of `s` at `i` once that window is lower-cased. */
  predicate LowerOccursAt(s: string, part: string, i: nat) {
    i + |part| <= |s| && ToLower(s[i..i + |part|]) == part
  }

  /** Lower-casing the whole name and then looking for `part` is looking
      for a window of the name that lower-cases to `part`. */
  lemma LowerOccurrences(s: string, part: string)
    ensures forall i: nat :: OccursAt(ToLower(s), part, i) <==> LowerOccursAt(s, part, i)
  {
    forall i: nat
      ensures OccursAt(ToLower(s), part, i) <==> LowerOccursAt(s, part, i)
    {
      if i + |part| <= |s| {
        LowerOfSlice(s, i, i + |part|);
      }
    }
  }

  /** Lower-casing commutes with taking a slice. */
  lemma LowerOfSlice(s: string, i: nat, j: nat)
    requires i <= j <= |s|
    ensures ToLower(s)[i..j] == ToLower(s[i..j])
  {
    var a, b := ToLower(s)[i..j], ToLower(s[i..j]);
    assert |a| == |b|;
    forall k | 0 <= k < |a|
      ensures a[k] == b[k]
    {
      assert a[k] == ToLower(s)[i + k];
      assert s[i..j][k] == s[i + k];
    }
  }

  predicate IsCentsScaled(t: Titulo) {
    t.tipo in CentsScaledTypes && IsPeso(t.moneda)
  }

  /** Divisor for peso → dollar (1 when no rate is at hand). */
  function BuyFactor(rate: Option<ExchangeRate>): real {
    match rate
    case Some(r) => r.buyRate
    case None => 1.0
  }

  /** Multiplier for dollar → peso (1 when no rate is at hand). */
  function SellFactor(rate: Option<ExchangeRate>): real {
    match rate
    case Some(r) => r.sellRate
    case None => 1.0
  }

  predicate BuyDivisible(rate: Option<ExchangeRate>) {
    rate.Some? ==> rate.value.buyRate != 0.0
  }

  /** The per-asset mapping inside `getPortfolio`. */
  function NormaliseAsset(a: RawAsset, rate: Option<ExchangeRate>): (r: BrokerAsset)
    requires BuyDivisible(rate)
    ensures r.symbol == a.titulo.simbolo && r.description == a.titulo.descripcion
    ensures r.instrumentType == a.titulo.tipo && r.amount == a.cantidad
    // cents scaling applies to peso bonds, notes and letters, and only to them
    ensures IsPeso(a.titulo.moneda) ==>
              && r.ppcARS * (if a.titulo.tipo in CentsScaledTypes then 100.0 else 1.0) == a.ppc
              && r.latestPriceARS * (if a.titulo.tipo in CentsScaledTypes then 100.0 else 1.0) == a.ultimoPrecio
    // pesos are native for peso instruments: dollars are pesos over the buy rate
    ensures IsPeso(a.titulo.moneda) ==>
              r.ppcUSD * BuyFactor(rate) == r.ppcARS && r.latestPriceUSD * BuyFactor(rate) == r.latestPriceARS
    // dollars are native otherwise: pesos are dollars times the sell rate
    ensures !IsPeso(a.titulo.moneda) ==>
              && r.ppcUSD == a.ppc && r.latestPriceUSD == a.ultimoPrecio
              && r.ppcARS == r.ppcUSD * SellFactor(rate) && r.latestPriceARS == r.latestPriceUSD * SellFactor(rate)
    // without a rate both currencies carry the same figure
    ensures rate.None? ==> r.ppcARS == r.ppcUSD && r.latestPriceARS == r.latestPriceUSD
  {
    var t := a.titulo;
    var ppc := if IsCentsScaled(t) then a.ppc / 100.0 else a.ppc;
    var last := if IsCentsScaled(t) then a.ultimoPrecio / 100.0 else a.ultimoPrecio;
    if IsPeso(t.moneda) then
      BrokerAsset(t.simbolo, t.descripcion, t.tipo,
                  ppc, ppc / BuyFactor(rate), a.cantidad, last, last / BuyFactor(rate))
    else
      BrokerAsset(t.simbolo, t.descripcion, t.tipo,
                  ppc * SellFactor(rate), ppc, a.cantidad, last * SellFactor(rate), last)
  }

  /** `activos.map(...)`: one normalised asset per raw asset, in order. */
  function NormaliseAssets(assets: seq<RawAsset>, rate: Option<ExchangeRate>): (r: seq<BrokerAsset>)
    requires BuyDivisible(rate)
    ensures |r| == |assets|
    ensures forall i | 0 <= i < |assets| :: r[i] == NormaliseAsset(assets[i], rate)
  {
    seq(|assets|, i requires 0 <= i < |assets| => NormaliseAsset(assets[i], rate))
  }

  datatype PortfolioCall = PortfolioCall(cache: RateCache, result: Result<seq<BrokerAsset>>)

  /** `getPortfolio`: the positions GET (`response`), then the rate lookup
      through the cache (`rateFetch` is the provider's answer, if asked). */
  function GetPortfolio(cache: RateCache, response: Option<seq<RawAsset>>, rateFetch: Option<RateResponse>): (r: PortfolioCall)
    requires ValidCache(cache) && ValidFetch(rateFetch)
    // a failed positions request throws before the rate is looked up
    ensures response.None? ==> r.result.Failure? && r.cache == cache
    // a failed rate lookup throws too, and the cache stays empty
    ensures response.Some? && cache.exchangeRate.None? && rateFetch.None? ==> r.result.Failure? && r.cache == cache
    ensures r.result.Success? <==> response.Some? && (cache.exchangeRate.Some? || rateFetch.Some?)
    // the rate lookup goes through the cache: a cached rate is reused, a fetched one is kept
    ensures response.Some? ==> r.cache == FetchMepExchangeRate(cache, rateFetch).cache
    // on success every asset is normalised with the cached rate, in order
    ensures r.result.Success? ==>
              && r.cache.exchangeRate.Some? && ValidRate(r.cache.exchangeRate.value)
              && |r.result.value| == |response.value|
              && forall i | 0 <= i < |response.value| ::
                   r.result.value[i] == NormaliseAsset(response.value[i], r.cache.exchangeRate)
    ensures ValidCache(r.cache)
  {
    match response
    case None => PortfolioCall(cache, Failure("Error fetching portfolio"))
    case Some(assets) =>
      var call := FetchMepExchangeRate(cache, rateFetch);
      match call.result
      case Failure(e) => PortfolioCall(call.cache, Failure(e))
      case Success(rate) => PortfolioCall(call.cache, Success(NormaliseAssets(assets, Some(rate))))
  }

  // -------------------------------------------------------- operations

  /** One entry of the broker's `operaciones`. */
  datatype RawOperation = RawOperation(numero: int, fechaOrden: string, titulo: Titulo, tipo: string, precio: real, cantidad: real)

  /** The renamed record `getOperations` returns. */
  datatype BrokerOperation = BrokerOperation(id: int, date: string, symbol: string, operationType: string, price: real, amount: real)

  /** `getOperations`: one renamed record per broker entry, in order. */
  function GetOperations(response: Option<seq<RawOperation>>): (r: Result<seq<BrokerOperation>>)
    ensures r.Success? <==> response.Some?
    ensures r.Success? ==>
              && |r.value| == |response.value|
              && forall i | 0 <= i < |response.value| ::
                   var o, b := response.value[i], r.value[i];
                   && b.id == o.numero && b.date == o.fechaOrden && b.symbol == o.titulo.simbolo
                   && b.operationType == o.tipo && b.price == o.precio && b.amount == o.cantidad
  {
    match response
    case None => Failure("Error fetching operations")
    case Some(ops) =>
      Success(seq(|ops|, i requires 0 <= i < |ops| =>
        BrokerOperation(ops[i].numero, ops[i].fechaOrden, ops[i].titulo.simbolo, ops[i].tipo, ops[i].precio, ops[i].cantidad)))
  }

  /** Lower-casing introduces a 'p' only where the input had 'p' or 'P'. */
  lemma LowerHasNoP(s: string)
    requires 'p' !in s && 'P' !in s
    ensures 'p' !in ToLower(s)
  {
    forall i | 0 <= i < |s|
      ensures ToLower(s)[i] != 'p'
    {
      assert s[i] in s;
    }
  }

  lemma {:induction false} NoPNoPeso(s: string)
    requires 'p' !in s
    ensures !Contains(s, "peso")
    decreases |s|
  {
    if |s| >= 4 {
      assert s[..4][0] == s[0];
    }
    if |s| > 0 {
      NoPNoPeso(s[1..]);
    }
  }

  /** The broker's peso currency name passes the "mentions peso" test, in
      agreement with the exact comparison against 'peso_Argentino' made when
      operations are stored. */
  lemma PesoNameIsPeso()
    ensures IsPeso("peso_Argentino")
  {
    PesoPrefixIsPeso("peso_Argentino");
  }

  /** A name starting with the lower-case word is a peso name. */
  lemma PesoPrefixIsPeso(name: string)
    requires |name| >= 4 && name[..4] == "peso"
    ensures IsPeso(name)
  {
    var l := ToLower(name);
    assert forall i | 0 <= i < 4 :: l[i] == name[i] by {
      forall i | 0 <= i < 4
        ensures l[i] == name[i]
      {
        assert name[i] == name[..4][i];
      }
    }
    assert l[..4] == name[..4];
  }

  /** The broker's dollar currency name fails the "mentions peso" test. */
  lemma DollarNameIsNotPeso()
    ensures !IsPeso("dolares_EstadosUnidos")
  {
    var d := "dolares_EstadosUnidos";
    assert 'P' !in d;
    assert 'p' !in d;
    LowerHasNoP(d);
    NoPNoPeso(ToLower(d));
  }
}

=== FILE: portfolio_queries.dfy ===
/** The read side of the portfolio (services/PortfolioQueries.ts): the latest
    valuation snapshot, synthesised from the positions when none exists, the
    snapshot before it, and the positions listed by symbol. Every query
    catches its own errors and answers null or an empty list, so a failing
    read or write is a boolean parameter here and never an error result. */
module PortfolioQueries {
  import opened Wrappers
  import opened Tables
  import opened SymbolOrder

  /** A position as `getAllPortfolioItems` returns it. The query does not
      select `type`, so the record has none, and `id` and `openPosition`
      are not selected either. */
  datatype PortfolioItem = PortfolioItem(
    symbol: string,
    amount: real,
    ppcARS: real,
    ppcUSD: real,
    lastPriceARS: real,
    lastPriceUSD: real,
    date: int,
    description: string)

  function ToItem(row: PortfolioRow): (it: PortfolioItem)
    ensures it.symbol == row.symbol && it.description == row.description && it.date == row.date
    ensures it.amount == row.amount
    ensures it.ppcARS == row.ppcARS && it.ppcUSD == row.ppcUSD
    ensures it.lastPriceARS == row.lastPriceARS && it.lastPriceUSD == row.lastPriceUSD
  {
    PortfolioItem(row.symbol, row.amount, row.ppcARS, row.ppcUSD,
                  row.lastPriceARS, row.lastPriceUSD, row.date, row.description)
  }

  function ToItems(rows: seq<PortfolioRow>): (items: seq<PortfolioItem>)
    ensures |items| == |rows|
    ensures forall i | 0 <= i < |rows| :: items[i] == ToItem(rows[i])
  {
    seq(|rows|, i requires 0 <= i < |rows| => ToItem(rows[i]))
  }

  /** `getAllPortfolioItems`: every position, ascending by symbol; a failed
      read (`readOk` false) gives the empty list. */
  function GetAllPortfolioItems(t: PortfolioTable, readOk: bool): (items: seq<PortfolioItem>)
    ensures !readOk ==> items == []
    ensures readOk ==> |items| == |t.rows|
    ensures readOk ==> forall i | 0 < i < |items| :: SymbolLe(items[i - 1].symbol, items[i].symbol)
    ensures readOk ==> forall row | row in t.rows :: ToItem(row) in items
    ensures readOk ==> forall i | 0 <= i < |items| :: exists row | row in t.rows :: items[i] == ToItem(row)
    // every row is listed exactly once: the listing is a rearrangement of the rows' items
    ensures readOk ==> multiset(items) == multiset(ToItems(t.rows))
  {
    if !readOk then []
    else
      var sorted := SortBySymbol(t.rows);
      SortKeepsRows(t.rows);
      ItemsOfSameRows(t.rows, sorted);
      ToItemsPermutation(sorted, t.rows);
      ToItems(sorted)
  }

  /** Rows that are a rearrangement of each other list items that are a
      rearrangement of each other. */
  lemma {:induction false} ToItemsPermutation(a: seq<PortfolioRow>, b: seq<PortfolioRow>)
    requires multiset(a) == multiset(b)
    ensures multiset(ToItems(a)) == multiset(ToItems(b))
    decreases |a|
  {
    if |a| == 0 {
      assert |b| == |multiset(b)| == 0;
      assert ToItems(a) == ToItems(b) == [];
    } else {
      var x := a[|a| - 1];
      var a' := a[..|a| - 1];
      var k := MatchLast(a, b);
      var b' := b[..k] + b[k + 1..];
      assert a == a' + [x];
      assert b == b[..k] + [x] + b[k + 1..];
      ToItemsPermutation(a', b');
      ToItemsAppend(a', [x]);
      ToItemsAppend(b[..k] + [x], b[k + 1..]);
      ToItemsAppend(b[..k], [x]);
      ToItemsAppend(b[..k], b[k + 1..]);
    }
  }

  lemma ToItemsAppend(a: seq<PortfolioRow>, b: seq<PortfolioRow>)
    ensures ToItems(a + b) == ToItems(a) + ToItems(b)
  {
  }

  /** Listing a rearrangement of the rows lists an item for each row and
      nothing else. */
  lemma ItemsOfSameRows(rows: seq<PortfolioRow>, sorted: seq<PortfolioRow>)
    requires forall row | row in rows :: row in sorted
    requires forall row | row in sorted :: row in rows
    ensures forall row | row in rows :: ToItem(row) in ToItems(sorted)
    ensures forall i | 0 <= i < |sorted| :: exists row | row in rows :: ToItems(sorted)[i] == ToItem(row)
  {
    var items := ToItems(sorted);
    forall row | row in rows
      ensures ToItem(row) in items
    {
      var k :| 0 <= k < |sorted| && sorted[k] == row;
      assert items[k] == ToItem(row);
    }
    forall i | 0 <= i < |sorted|
      ensures exists row | row in rows :: items[i] == ToItem(row)
    {
      assert sorted[i] in sorted;
    }
  }

  /** Σ amount × lastPrice over the listed items, in currency `c`. */
  function ItemsValue(items: seq<PortfolioItem>, c: Currency): real {
    if |items| == 0 then 0.0
    else
      var last := items[|items| - 1];
      ItemsValue(items[..|items| - 1], c) + last.amount * (match c case ARS => last.lastPriceARS case USD => last.lastPriceUSD)
  }

  lemma {:induction false} ItemsValueOfRows(rows: seq<PortfolioRow>, c: Currency)
    ensures ItemsValue(ToItems(rows), c) == ValueAt(rows, c)
    decreases |rows|
  {
    if |rows| > 0 {
      var n := |rows| - 1;
      assert ToItems(rows)[..n] == ToItems(rows[..n]);
      ItemsValueOfRows(rows[..n], c);
    }
  }

  /** Summing the listing gives the value of the table: the order the rows
      are listed in does not matter. */
  lemma ListingValueIsTableValue(t: PortfolioTable, c: Currency)
    ensures ItemsValue(GetAllPortfolioItems(t, true), c) == ValueAt(t.rows, c)
  {
    ItemsValueOfRows(SortBySymbol(t.rows), c);
    ValueAtPermutation(SortBySymbol(t.rows), t.rows, c);
  }

  /** Position of the first snapshot with the greatest date: the row that
      `ORDER BY date DESC LIMIT 1` yields (ties, which the ISO timestamps make
      unlikely, are resolved towards the older row). */
  function LatestIndex(values: seq<PortfolioValue>): (k: nat)
    requires |values| > 0
    ensures k < |values|
    ensures forall j | 0 <= j < |values| :: values[j].date <= values[k].date
    ensures forall j | 0 <= j < k :: values[j].date < values[k].date
  {
    if |values| == 1 then 0
    else
      var k := LatestIndex(values[..|values| - 1]);
      if values[|values| - 1].date > values[k].date then |values| - 1 else k
  }

  /** Position of the snapshot `ORDER BY date DESC LIMIT 2` yields second:
      the latest among all snapshots but the latest one. */
  function SecondLatestIndex(values: seq<PortfolioValue>): (k: nat)
    requires |values| >= 2
    ensures k < |values| && k != LatestIndex(values)
    ensures values[k].date <= values[LatestIndex(values)].date
    ensures forall j | 0 <= j < |values| && j != LatestIndex(values) :: values[j].date <= values[k].date
  {
    var top := LatestIndex(values);
    var k := LatestIndex(Without(values, top));
    LatestOfRest(values, top, k);
    if k < top then k else k + 1
  }

  /** The latest of the snapshots left once the one at `top` is taken out,
      read back at its position among all of them. */
  lemma LatestOfRest(values: seq<PortfolioValue>, top: nat, k: nat)
    requires top < |values| && k < |values| - 1
    requires forall j | 0 <= j < |values| - 1 :: Without(values, top)[j].date <= Without(values, top)[k].date
    ensures var r := if k < top then k else k + 1;
            && r < |values| && r != top
            && forall j | 0 <= j < |values| && j != top :: values[j].date <= values[r].date
  {
    var rest := Without(values, top);
    var r := if k < top then k else k + 1;
    assert values[r] == rest[k];
    forall j | 0 <= j < |values| && j != top
      ensures values[j].date <= values[r].date
    {
      var j' := if j < top then j else j - 1;
      assert rest[j'] == values[j];
    }
  }

  /** The snapshots with the one at `top` taken out, the others in order. */
  function Without(values: seq<PortfolioValue>, top: nat): (r: seq<PortfolioValue>)
    requires top < |values|
    ensures |r| == |values| - 1
    ensures forall j | 0 <= j < |r| :: r[j] == values[if j < top then j else j + 1]
  {
    values[..top] + values[top + 1..]
  }

  /** `getPreviousPortfolioValue`: the second-latest snapshot, present iff
      the read succeeds and at least two snapshots exist. */
  function GetPreviousPortfolioValue(values: seq<PortfolioValue>, readOk: bool): (r: Option<PortfolioValue>)
    ensures r.Some? <==> readOk && |values| >= 2
    ensures r.Some? ==> r.value in values
    // it is a snapshot other than the latest one, as `rows[1]` of the query is
    ensures r.Some? ==> exists k | 0 <= k < |values| && k != LatestIndex(values) :: values[k] == r.value
    ensures r.Some? ==> r.value.date <= values[LatestIndex(values)].date
    ensures r.Some? ==> forall j | 0 <= j < |values| && j != LatestIndex(values) :: values[j].date <= r.value.date
  {
    if readOk && |values| >= 2 then Some(values[SecondLatestIndex(values)]) else None
  }

  /** The outcome of `getLatestPortfolioValue`: the `PortfolioValue` table
      afterwards and the value returned (None for null). */
  datatype LatestCall = LatestCall(values: seq<PortfolioValue>, result: Option<PortfolioValue>)

  /** `getLatestPortfolioValue`. `snapshotReadOk`, `itemsReadOk` and
      `insertOk` say whether the snapshot query, the positions query and the
      INSERT succeed; `now` is the clock. */
  function GetLatestPortfolioValue(values: seq<PortfolioValue>, t: PortfolioTable, now: int,
                                   snapshotReadOk: bool, itemsReadOk: bool, insertOk: bool): (r: LatestCall)
    // at most one snapshot is written, and it is the one returned
    ensures r.values == values || (r.result.Some? && r.values == values + [r.result.value])
    // an existing snapshot wins: one with the greatest date, nothing written
    ensures snapshotReadOk && |values| > 0 ==>
              && r.values == values
              && r.result.Some? && r.result.value in values
              && forall j | 0 <= j < |values| :: values[j].date <= r.result.value.date
    // with no snapshot and no position there is nothing to value
    ensures |values| == 0 && |t.rows| == 0 ==> r == LatestCall(values, None)
    // with no snapshot but some position, the table's value is recorded and returned
    ensures snapshotReadOk && itemsReadOk && insertOk && |values| == 0 && |t.rows| > 0 ==>
              var v := PortfolioValue(ValueAt(t.rows, ARS), ValueAt(t.rows, USD), now);
              r == LatestCall([v], Some(v))
    // any failure is answered with null and writes nothing
    ensures !snapshotReadOk || (|values| == 0 && (!itemsReadOk || !insertOk)) ==> r == LatestCall(values, None)
    ensures r.result.Some? ==> |r.values| > 0
  {
    if !snapshotReadOk then LatestCall(values, None)
    else if |values| > 0 then LatestCall(values, Some(values[LatestIndex(values)]))
    else
      var items := GetAllPortfolioItems(t, itemsReadOk);
      if |items| == 0 then LatestCall(values, None)
      else if !insertOk then LatestCall(values, None)
      else
        ListingValueIsTableValue(t, ARS);
        ListingValueIsTableValue(t, USD);
        var v := PortfolioValue(ItemsValue(items, ARS), ItemsValue(items, USD), now);
        LatestCall(values + [v], Some(v))
  }

  /** Asking twice in a row gives the same answer the second time without
      writing again: the first call either found a snapshot or recorded one. */
  lemma LatestIsStable(values: seq<PortfolioValue>, t: PortfolioTable, now: int, later: int)
    requires |values| > 0 || |t.rows| > 0
    ensures var first := GetLatestPortfolioValue(values, t, now, true, true, true);
            var second := GetLatestPortfolioValue(first.values, t, later, true, true, true);
            second.values == first.values && second.result.Some? && second.result.value in first.values
  {
  }
}

=== FILE: portfolio_service.dfy ===
/** The bookkeeping of services/PortfolioService.ts: resolving a trade's
    price in both currencies, applying a trade to the `Portfolio` table
    (weighted-average cost on buys, clamped quantity on sells) and appending
    a valuation snapshot. The current time is the parameter `now`. */
module PortfolioService {
  import opened Wrappers
  import opened Tables
  import opened DolarMep
  import opened IolService

  /** A broker trade as `storeOperation` and `updatePortfolio` read it; the
      quantity and price may be missing (JavaScript `null`/`undefined`). */
  datatype TradeEvent = TradeEvent(
    numero: int,
    fechaOperada: string,
    tipo: string,
    simbolo: string,
    cantidadOperada: Option<real>,
    precioOperado: Option<real>)

  /** `x ?? 0`. */
  function OrZero(x: Option<real>): real {
    match x
    case Some(v) => v
    case None => 0.0
  }

  function Quantity(op: TradeEvent): real {
    OrZero(op.cantidadOperada)
  }

  // ------------------------------------------------------ classification

  const BuyTypes: set<string> := {"Compra", "Suscripción FCI", "Suscripción OTC"}
  const SellTypes: set<string> := {"Venta", "Rescate FCI", "Rescate FCI OTC"}

  predicate IsBuy(tipo: string) {
    tipo == "Compra" || tipo == "Suscripción FCI" || tipo == "Suscripción OTC"
  }

  predicate IsSell(tipo: string) {
    tipo == "Venta" || tipo == "Rescate FCI" || tipo == "Rescate FCI OTC"
  }

  /** Buy-class and sell-class are exactly the two three-element sets, and no
      operation type is both. */
  lemma ClassificationIsExact(tipo: string)
    ensures IsBuy(tipo) <==> tipo in BuyTypes
    ensures IsSell(tipo) <==> tipo in SellTypes
    ensures !(IsBuy(tipo) && IsSell(tipo))
    ensures |BuyTypes| == 3 && |SellTypes| == 3
  {
  }

  // ---------------------------------------------------- price resolution

  /** What `getSymbolInfo` answers that matters here: the trading currency. */
  datatype SymbolInfo = SymbolInfo(moneda: string)

  const PesoArgentino: string := "peso_Argentino"

  datatype TradePrice = TradePrice(ars: real, usd: real)

  /** The price resolution inside `storeOperation`: the operated price is in
      the instrument's own currency and is mirrored through the MEP sell rate. */
  function ResolvePrice(moneda: string, precio: Option<real>, rate: Option<ExchangeRate>): (p: TradePrice)
    requires moneda == PesoArgentino ==> SellFactor(rate) != 0.0
    ensures moneda == PesoArgentino ==> p.ars == OrZero(precio)
    ensures moneda != PesoArgentino ==> p.usd == OrZero(precio)
    // the two figures always agree through the rate
    ensures p.usd * SellFactor(rate) == p.ars
    ensures rate.None? ==> p.ars == p.usd
    ensures precio.None? ==> p == TradePrice(0.0, 0.0)
  {
    var precioOperado := OrZero(precio);
    if moneda == PesoArgentino then TradePrice(precioOperado, precioOperado / SellFactor(rate))
    else TradePrice(precioOperado * SellFactor(rate), precioOperado)
  }

  datatype StoreOutcome = StoreOutcome(ledger: seq<OperationRecord>, cache: RateCache)

  /** `storeOperation`: `info` is the `getSymbolInfo` answer, `rateFetch` the
      rate provider's answer (used only if the cache is empty) and `insertOk`
      whether the INSERT succeeds. Every failure is caught and dropped. */
  function StoreOperation(ledger: seq<OperationRecord>, cache: RateCache, op: TradeEvent,
                          info: Option<SymbolInfo>, rateFetch: Option<RateResponse>, insertOk: bool): (r: StoreOutcome)
    requires ValidCache(cache) && ValidFetch(rateFetch)
    // a failed symbol lookup aborts before the rate is touched
    ensures info.None? ==> r == StoreOutcome(ledger, cache)
    // the rate comes through the cache, which the lookup leaves as it always does
    ensures info.Some? ==> r.cache == FetchMepExchangeRate(cache, rateFetch).cache
    ensures ValidCache(r.cache)
    // exactly one record is appended when every step succeeds, none otherwise
    ensures |r.ledger| == |ledger| + 1 <==> info.Some? && (cache.exchangeRate.Some? || rateFetch.Some?) && insertOk
    ensures |r.ledger| != |ledger| + 1 ==> r.ledger == ledger
    ensures |r.ledger| == |ledger| + 1 ==>
              && r.ledger[..|ledger|] == ledger
              && r.cache.exchangeRate.Some?
              && var rec, rate := r.ledger[|ledger|], r.cache.exchangeRate.value.sellRate;
              && rec.numero == op.numero && rec.fecha == op.fechaOperada
              && rec.tipo == op.tipo && rec.simbolo == op.simbolo
              && rec.cantidad == Quantity(op)
              && (if info.value.moneda == PesoArgentino then rec.priceARS else rec.priceUSD) == OrZero(op.precioOperado)
              && rec.priceUSD * rate == rec.priceARS
  {
    match info
    case None => StoreOutcome(ledger, cache)
    case Some(titulo) =>
      var call := FetchMepExchangeRate(cache, rateFetch);
      match call.result
      case Failure(_) => StoreOutcome(ledger, call.cache)
      case Success(rate) =>
        var p := ResolvePrice(titulo.moneda, op.precioOperado, Some(rate));
        var rec := OperationRecord(op.numero, op.fechaOperada, op.tipo, op.simbolo, Quantity(op), p.ars, p.usd);
        StoreOutcome(if insertOk then ledger + [rec] else ledger, call.cache)
  }

  // ---------------------------------------------------- position update

  /** The row `updatePortfolio` inserts for a first buy. Description and type
      are not supplied by the source's INSERT; they are left empty here. */
  function NewRow(symbol: string, amount: real, priceARS: real, priceUSD: real, now: int): PortfolioRow {
    PortfolioRow(0, symbol, "", "", amount, priceARS, priceUSD, priceARS, priceUSD, now, false)
  }

  /** Cost per unit after adding `q` units at `price` to `amount` units held at `ppc`. */
  function WeightedAverage(amount: real, ppc: real, q: real, price: real): (avg: real)
    // buying at the cost already held keeps that cost
    ensures amount + q != 0.0 && price == ppc ==> avg == ppc
    // adding to a holding moves the cost towards the trade's price, never past it
    ensures amount >= 0.0 && q >= 0.0 && amount + q > 0.0 ==>
              (ppc <= price ==> ppc <= avg <= price) && (price <= ppc ==> price <= avg <= ppc)
  {
    var newAmount := amount + q;
    if newAmount != 0.0 then
      AverageBetween(amount, ppc, q, price);
      (amount * ppc + q * price) / newAmount
    else 0.0
  }

  lemma AverageBetween(amount: real, ppc: real, q: real, price: real)
    requires amount + q != 0.0
    ensures price == ppc ==> (amount * ppc + q * price) / (amount + q) == ppc
    ensures amount >= 0.0 && q >= 0.0 && amount + q > 0.0 ==>
              var avg := (amount * ppc + q * price) / (amount + q);
              (ppc <= price ==> ppc <= avg <= price) && (price <= ppc ==> price <= avg <= ppc)
  {
    var n := amount + q;
    var avg := (amount * ppc + q * price) / n;
    assert avg * n == amount * ppc + q * price;
    assert (avg - ppc) * n == q * (price - ppc);
    assert (price - avg) * n == amount * (price - ppc);
    if amount >= 0.0 && q >= 0.0 && n > 0.0 {
      if ppc <= price {
        assert q * (price - ppc) >= 0.0;
        assert amount * (price - ppc) >= 0.0;
      } else {
        assert q * (price - ppc) <= 0.0;
        assert amount * (price - ppc) <= 0.0;
      }
    }
  }

  /** (amount + q) × the new average cost is the old cost plus what the
      purchase cost. */
  lemma WeightedAverageKeepsCost(amount: real, ppc: real, q: real, price: real)
    ensures amount + q != 0.0 ==> (amount + q) * WeightedAverage(amount, ppc, q, price) == amount * ppc + q * price
    ensures amount + q == 0.0 ==> WeightedAverage(amount, ppc, q, price) == 0.0
  {
  }

  /** max(0, x): the floor a sell applies. */
  function Clamp(x: real): (r: real)
    ensures r >= 0.0 && r >= x && (r == 0.0 || r == x)
  {
    if x < 0.0 then 0.0 else x
  }

  /** The row a buy of `q` units at `priceARS`/`priceUSD` makes of `row`:
      quantity added, weighted-average cost, last price set to the trade's. */
  function Bought(row: PortfolioRow, q: real, priceARS: real, priceUSD: real, now: int): (b: PortfolioRow)
    // the position keeps its key, symbol, description, type and flag
    ensures b.id == row.id && b.symbol == row.symbol && b.description == row.description
    ensures b.instrumentType == row.instrumentType && b.openPosition == row.openPosition
    // it holds `q` more units, last traded at the trade's price, as of `now`
    ensures b.amount - row.amount == q && b.date == now
    ensures b.lastPriceARS == priceARS && b.lastPriceUSD == priceUSD
  {
    row.(amount := row.amount + q,
         ppcARS := WeightedAverage(row.amount, row.ppcARS, q, priceARS),
         ppcUSD := WeightedAverage(row.amount, row.ppcUSD, q, priceUSD),
         lastPriceARS := priceARS, lastPriceUSD := priceUSD, date := now)
  }

  /** The row a sell of `q` units makes of `row`: quantity lowered and
      floored at zero; the last price is written back unchanged. */
  function Sold(row: PortfolioRow, q: real, now: int): (r: PortfolioRow)
    // only the quantity and the date move: cost and last price stay
    ensures r == row.(amount := r.amount, date := now)
    // the quantity drops by `q` but not below zero
    ensures r.amount >= 0.0 && (r.amount == 0.0 || r.amount == row.amount - q)
    ensures r.amount >= row.amount - q
  {
    row.(amount := Clamp(row.amount - q), lastPriceARS := row.lastPriceARS,
         lastPriceUSD := row.lastPriceUSD, date := now)
  }

  /** `updatePortfolio`: applies one trade, priced `priceARS`/`priceUSD`, to
      the table. Only the first row holding the symbol is read; the UPDATE is
      keyed on that row's id and writes the columns its SET lists. */
  function UpdatePortfolio(t: PortfolioTable, op: TradeEvent, priceARS: real, priceUSD: real, now: int): (t': PortfolioTable)
    ensures WellFormed(t) ==> WellFormed(t')
    // existing rows keep their place, key and symbol
    ensures |t'.rows| >= |t.rows|
    ensures forall j | 0 <= j < |t.rows| :: t'.rows[j].id == t.rows[j].id && t'.rows[j].symbol == t.rows[j].symbol
    // a type that is neither buy nor sell changes nothing
    ensures !IsBuy(op.tipo) && !IsSell(op.tipo) ==> t' == t
    // a trade on a symbol not held: a buy appends one row, anything else changes nothing
    ensures FirstWithSymbol(t.rows, op.simbolo).None? ==>
              if IsBuy(op.tipo) then t'.rows[..|t.rows|] == t.rows && |t'.rows| == |t.rows| + 1 else t' == t
    // a trade on a held symbol never adds a row
    ensures FirstWithSymbol(t.rows, op.simbolo).Some? ==> |t'.rows| == |t.rows| && t'.nextId == t.nextId
  {
    var q := Quantity(op);
    match FirstWithSymbol(t.rows, op.simbolo)
    case None =>
      if IsBuy(op.tipo) then Insert(t, NewRow(op.simbolo, q, priceARS, priceUSD, now)) else t
    case Some(i) =>
      var row := t.rows[i];
      if IsBuy(op.tipo) then
        var b := Bought(row, q, priceARS, priceUSD, now);
        t.(rows := UpdateWhereId(t.rows, row.id,
                    (r: PortfolioRow) => r.(amount := b.amount, ppcARS := b.ppcARS, ppcUSD := b.ppcUSD,
                                            lastPriceARS := b.lastPriceARS, lastPriceUSD := b.lastPriceUSD, date := b.date)))
      else if IsSell(op.tipo) then
        var s := Sold(row, q, now);
        t.(rows := UpdateWhereId(t.rows, row.id,
                    (r: PortfolioRow) => r.(amount := s.amount, lastPriceARS := s.lastPriceARS,
                                            lastPriceUSD := s.lastPriceUSD, date := s.date)))
      else t
  }

  /** What a trade does to the first row holding its symbol. */
  lemma HeldRowAfter(t: PortfolioTable, op: TradeEvent, priceARS: real, priceUSD: real, now: int, i: nat)
    requires FirstWithSymbol(t.rows, op.simbolo) == Some(i)
    ensures UpdatePortfolio(t, op, priceARS, priceUSD, now).rows[i]
              == if IsBuy(op.tipo) then Bought(t.rows[i], Quantity(op), priceARS, priceUSD, now)
                 else if IsSell(op.tipo) then Sold(t.rows[i], Quantity(op), now)
                 else t.rows[i]
  {
  }

  /** A first buy of a symbol inserts exactly one row, with the bought
      quantity, and with cost and last price equal to the trade's price. */
  lemma FirstBuyInserts(t: PortfolioTable, op: TradeEvent, priceARS: real, priceUSD: real, now: int)
    requires FirstWithSymbol(t.rows, op.simbolo).None? && IsBuy(op.tipo)
    ensures var t' := UpdatePortfolio(t, op, priceARS, priceUSD, now);
            && |t'.rows| == |t.rows| + 1 && t'.rows[..|t.rows|] == t.rows
            && var n := t'.rows[|t.rows|];
            && n.symbol == op.simbolo && n.id == t.nextId && n.amount == Quantity(op)
            && n.ppcARS == priceARS && n.ppcUSD == priceUSD
            && n.lastPriceARS == priceARS && n.lastPriceUSD == priceUSD
            && FirstWithSymbol(t'.rows, op.simbolo) == Some(|t.rows|)
  {
    var t' := UpdatePortfolio(t, op, priceARS, priceUSD, now);
    assert forall j | 0 <= j < |t.rows| :: t'.rows[j] == t.rows[j];
  }

  /** Only the row `existing[0]` is touched: with unique ids, every other row
      is left as it was. */
  lemma OnlyFirstMatchChanges(t: PortfolioTable, op: TradeEvent, priceARS: real, priceUSD: real, now: int, i: nat)
    requires WellFormed(t)
    requires FirstWithSymbol(t.rows, op.simbolo) == Some(i)
    ensures var t' := UpdatePortfolio(t, op, priceARS, priceUSD, now);
            forall j | 0 <= j < |t.rows| && j != i :: t'.rows[j] == t.rows[j]
  {
  }

  /** A buy on a held symbol adds the quantity, moves the average cost to
      the weighted average of the old cost and the trade's price, and records
      that price as the last price. */
  lemma BuyOnHeldSymbol(t: PortfolioTable, op: TradeEvent, priceARS: real, priceUSD: real, now: int, i: nat)
    requires FirstWithSymbol(t.rows, op.simbolo) == Some(i) && IsBuy(op.tipo)
    ensures var old_, new_ := t.rows[i], UpdatePortfolio(t, op, priceARS, priceUSD, now).rows[i];
            && new_.amount == old_.amount + Quantity(op)
            && new_.ppcARS == WeightedAverage(old_.amount, old_.ppcARS, Quantity(op), priceARS)
            && new_.ppcUSD == WeightedAverage(old_.amount, old_.ppcUSD, Quantity(op), priceUSD)
            && new_.lastPriceARS == priceARS && new_.lastPriceUSD == priceUSD
            && new_.symbol == old_.symbol && new_.id == old_.id
  {
    HeldRowAfter(t, op, priceARS, priceUSD, now, i);
  }

  /** Bought quantity × new average cost is the old cost plus what the
      purchase cost, or the cost is 0 when the quantity comes to 0. */
  lemma BoughtRowCost(row: PortfolioRow, q: real, priceARS: real, priceUSD: real, now: int)
    ensures var b := Bought(row, q, priceARS, priceUSD, now);
            && (b.amount != 0.0 ==>
                  && b.amount * b.ppcARS == row.amount * row.ppcARS + q * priceARS
                  && b.amount * b.ppcUSD == row.amount * row.ppcUSD + q * priceUSD)
            && (b.amount == 0.0 ==> b.ppcARS == 0.0 && b.ppcUSD == 0.0)
  {
    WeightedAverageKeepsCost(row.amount, row.ppcARS, q, priceARS);
    WeightedAverageKeepsCost(row.amount, row.ppcUSD, q, priceUSD);
  }

  /** A sell on a held symbol lowers the quantity by the sold amount, floored
      at zero, and leaves the average cost and the last price as they were. */
  lemma SellOnHeldSymbol(t: PortfolioTable, op: TradeEvent, priceARS: real, priceUSD: real, now: int, i: nat)
    requires FirstWithSymbol(t.rows, op.simbolo) == Some(i) && IsSell(op.tipo)
    ensures var old_, new_ := t.rows[i], UpdatePortfolio(t, op, priceARS, priceUSD, now).rows[i];
            && new_.amount >= 0.0 && new_.amount >= old_.amount - Quantity(op)
            && (new_.amount == 0.0 || new_.amount == old_.amount - Quantity(op))
            && new_.ppcARS == old_.ppcARS && new_.ppcUSD == old_.ppcUSD
            && new_.lastPriceARS == old_.lastPriceARS && new_.lastPriceUSD == old_.lastPriceUSD
            && new_.symbol == old_.symbol
  {
    assert !IsBuy(op.tipo);
    HeldRowAfter(t, op, priceARS, priceUSD, now, i);
  }

  // ------------------------------------------------- runs of operations

  /** One purchase: a quantity and its price in both currencies. */
  datatype Fill = Fill(qty: real, priceARS: real, priceUSD: real)

  function FillPrice(f: Fill, c: Currency): real {
    match c
    case ARS => f.priceARS
    case USD => f.priceUSD
  }

  /** What a fill cost, in currency `c`. */
  function FillCost(f: Fill, c: Currency): real {
    f.qty * FillPrice(f, c)
  }

  function BuyOf(symbol: string, f: Fill): TradeEvent {
    TradeEvent(0, "", "Compra", symbol, Some(f.qty), None)
  }

  function SellOf(symbol: string, q: real): TradeEvent {
    TradeEvent(0, "", "Venta", symbol, Some(q), None)
  }

  /** The table after buying each fill of `fills`, in order. */
  function ApplyBuys(t: PortfolioTable, symbol: string, fills: seq<Fill>, now: int): PortfolioTable
    decreases |fills|
  {
    if |fills| == 0 then t
    else ApplyBuys(UpdatePortfolio(t, BuyOf(symbol, fills[0]), fills[0].priceARS, fills[0].priceUSD, now),
                   symbol, fills[1..], now)
  }

  /** The table after selling each quantity of `qtys`, in order. */
  function ApplySells(t: PortfolioTable, symbol: string, qtys: seq<real>, now: int): PortfolioTable
    decreases |qtys|
  {
    if |qtys| == 0 then t
    else ApplySells(UpdatePortfolio(t, SellOf(symbol, qtys[0]), 0.0, 0.0, now), symbol, qtys[1..], now)
  }

  function SumQty(fills: seq<Fill>): real
    decreases |fills|
  {
    if |fills| == 0 then 0.0 else fills[0].qty + SumQty(fills[1..])
  }

  /** Σ qᵢ·pᵢ in currency `c`. */
  function SumCost(fills: seq<Fill>, c: Currency): real
    decreases |fills|
  {
    if |fills| == 0 then 0.0 else FillCost(fills[0], c) + SumCost(fills[1..], c)
  }

  function SumReal(qs: seq<real>): real
    decreases |qs|
  {
    if |qs| == 0 then 0.0 else qs[0] + SumReal(qs[1..])
  }

  lemma {:induction false} SumQtyPositive(fills: seq<Fill>)
    requires forall k | 0 <= k < |fills| :: fills[k].qty > 0.0
    ensures SumQty(fills) >= 0.0
    ensures |fills| > 0 ==> SumQty(fills) > 0.0
    decreases |fills|
  {
    if |fills| > 0 {
      SumQtyPositive(fills[1..]);
    }
  }

  lemma SumCostUnfold(fills: seq<Fill>)
    requires |fills| > 0
    ensures SumQty(fills) == fills[0].qty + SumQty(fills[1..])
    ensures forall c: Currency :: SumCost(fills, c) == FillCost(fills[0], c) + SumCost(fills[1..], c)
  {
  }

  /** Quantity × average cost: what was paid for the units held. */
  function CostBasis(r: PortfolioRow, c: Currency): real {
    r.amount * Ppc(r, c)
  }

  /** A trade on a held symbol leaves that symbol's first row where it was. */
  lemma UpdateKeepsLookup(t: PortfolioTable, op: TradeEvent, priceARS: real, priceUSD: real, now: int, i: nat)
    requires FirstWithSymbol(t.rows, op.simbolo) == Some(i)
    ensures FirstWithSymbol(UpdatePortfolio(t, op, priceARS, priceUSD, now).rows, op.simbolo) == Some(i)
  {
    FirstWithSymbolKeptBySameSymbols(t.rows, UpdatePortfolio(t, op, priceARS, priceUSD, now).rows, op.simbolo);
  }

  /** The row-level arithmetic of a purchase of a positive quantity into a
      row of non-negative quantity: the cost basis grows by what was paid. */
  lemma BoughtAddsCost(row: PortfolioRow, q: real, priceARS: real, priceUSD: real, now: int)
    requires row.amount >= 0.0 && q > 0.0
    ensures var b := Bought(row, q, priceARS, priceUSD, now);
            && b.amount == row.amount + q
            && CostBasis(b, ARS) == CostBasis(row, ARS) + q * priceARS
            && CostBasis(b, USD) == CostBasis(row, USD) + q * priceUSD
  {
    BoughtRowCost(row, q, priceARS, priceUSD, now);
  }

  /** One purchase into a held row: the table stays well formed, the row
      stays the first one with the symbol, and it becomes the bought row. */
  lemma BuyStep(t: PortfolioTable, op: TradeEvent, priceARS: real, priceUSD: real, now: int, i: nat)
    requires WellFormed(t)
    requires FirstWithSymbol(t.rows, op.simbolo) == Some(i) && IsBuy(op.tipo)
    ensures var t1 := UpdatePortfolio(t, op, priceARS, priceUSD, now);
            && WellFormed(t1)
            && FirstWithSymbol(t1.rows, op.simbolo) == Some(i)
            && t1.rows[i] == Bought(t.rows[i], Quantity(op), priceARS, priceUSD, now)
  {
    UpdateKeepsLookup(t, op, priceARS, priceUSD, now, i);
    HeldRowAfter(t, op, priceARS, priceUSD, now, i);
  }

  /** The synthetic purchase of a fill buys the fill's quantity. */
  lemma BuyOfFill(symbol: string, f: Fill)
    ensures var op := BuyOf(symbol, f);
            && op.simbolo == symbol && IsBuy(op.tipo) && Quantity(op) == f.qty
            && FillCost(f, ARS) == Quantity(op) * f.priceARS
            && FillCost(f, USD) == Quantity(op) * f.priceUSD
  {
  }

  /** Buying one fill into a held row of non-negative quantity. */
  lemma FillStep(t: PortfolioTable, symbol: string, f: Fill, now: int, i: nat)
    requires WellFormed(t)
    requires FirstWithSymbol(t.rows, symbol) == Some(i)
    requires t.rows[i].amount >= 0.0 && f.qty > 0.0
    ensures var t1 := UpdatePortfolio(t, BuyOf(symbol, f), f.priceARS, f.priceUSD, now);
            && WellFormed(t1)
            && FirstWithSymbol(t1.rows, symbol) == Some(i)
            && t1.rows[i].amount == t.rows[i].amount + f.qty
            && CostBasis(t1.rows[i], ARS) == CostBasis(t.rows[i], ARS) + FillCost(f, ARS)
            && CostBasis(t1.rows[i], USD) == CostBasis(t.rows[i], USD) + FillCost(f, USD)
  {
    BuyOfFill(symbol, f);
    BuyStep(t, BuyOf(symbol, f), f.priceARS, f.priceUSD, now, i);
    BoughtAddsCost(t.rows[i], f.qty, f.priceARS, f.priceUSD, now);
  }

  /** Buying at positive quantities into a held row of non-negative quantity
      adds the quantities and the costs: quantity × average cost is the total
      paid, in each currency. */
  lemma {:induction false} BuysAccumulate(t: PortfolioTable, symbol: string, fills: seq<Fill>, now: int, i: nat)
    requires WellFormed(t)
    requires FirstWithSymbol(t.rows, symbol) == Some(i)
    requires t.rows[i].amount >= 0.0
    requires forall k | 0 <= k < |fills| :: fills[k].qty > 0.0
    ensures var t' := ApplyBuys(t, symbol, fills, now);
            && WellFormed(t')
            && FirstWithSymbol(t'.rows, symbol) == Some(i)
            && t'.rows[i].amount == t.rows[i].amount + SumQty(fills)
            && CostBasis(t'.rows[i], ARS) == CostBasis(t.rows[i], ARS) + SumCost(fills, ARS)
            && CostBasis(t'.rows[i], USD) == CostBasis(t.rows[i], USD) + SumCost(fills, USD)
    decreases |fills|
  {
    if |fills| > 0 {
      var f := fills[0];
      var t1 := UpdatePortfolio(t, BuyOf(symbol, f), f.priceARS, f.priceUSD, now);
      FillStep(t, symbol, f, now, i);
      assert ApplyBuys(t, symbol, fills, now) == ApplyBuys(t1, symbol, fills[1..], now);
      assert t1.rows[i].amount >= 0.0;
      BuysAccumulate(t1, symbol, fills[1..], now, i);
      SumCostUnfold(fills);
    }
  }

  /** The first fill of a symbol not yet held appends its row. */
  lemma FirstFillInserts(t: PortfolioTable, symbol: string, f: Fill, now: int)
    requires WellFormed(t)
    requires FirstWithSymbol(t.rows, symbol).None?
    ensures var t1 := UpdatePortfolio(t, BuyOf(symbol, f), f.priceARS, f.priceUSD, now);
            && WellFormed(t1)
            && FirstWithSymbol(t1.rows, symbol) == Some(|t.rows|)
            && t1.rows[|t.rows|].amount == f.qty
            && CostBasis(t1.rows[|t.rows|], ARS) == FillCost(f, ARS)
            && CostBasis(t1.rows[|t.rows|], USD) == FillCost(f, USD)
  {
    BuyOfFill(symbol, f);
    FirstBuyInserts(t, BuyOf(symbol, f), f.priceARS, f.priceUSD, now);
  }

  /** A row holding a positive quantity costs its cost basis over its quantity per unit. */
  lemma UnitCost(r: PortfolioRow, c: Currency, total: real)
    requires r.amount > 0.0 && CostBasis(r, c) == total
    ensures Ppc(r, c) == total / r.amount
  {
  }

  /** From a symbol not yet held, a run of purchases with positive
      quantities leaves Σ qᵢ as the quantity and the weighted average
      Σ qᵢpᵢ / Σ qᵢ as the cost per unit, independently in each currency. */
  lemma {:induction false} AverageCostOfBuys(t: PortfolioTable, symbol: string, fills: seq<Fill>, now: int)
    requires WellFormed(t)
    requires FirstWithSymbol(t.rows, symbol).None?
    requires |fills| > 0
    requires forall k | 0 <= k < |fills| :: fills[k].qty > 0.0
    ensures var t' := ApplyBuys(t, symbol, fills, now);
            && FirstWithSymbol(t'.rows, symbol) == Some(|t.rows|)
            && SumQty(fills) > 0.0
            && t'.rows[|t.rows|].amount == SumQty(fills)
            && t'.rows[|t.rows|].ppcARS == SumCost(fills, ARS) / SumQty(fills)
            && t'.rows[|t.rows|].ppcUSD == SumCost(fills, USD) / SumQty(fills)
  {
    var f, n := fills[0], |t.rows|;
    var t1 := UpdatePortfolio(t, BuyOf(symbol, f), f.priceARS, f.priceUSD, now);
    FirstFillInserts(t, symbol, f, now);
    BuysAccumulate(t1, symbol, fills[1..], now, n);
    SumCostUnfold(fills);
    SumQtyPositive(fills);
    var r := ApplyBuys(t1, symbol, fills[1..], now).rows[n];
    assert r == ApplyBuys(t, symbol, fills, now).rows[n];
    assert CostBasis(r, ARS) == SumCost(fills, ARS);
    assert CostBasis(r, USD) == SumCost(fills, USD);
    UnitCost(r, ARS, SumCost(fills, ARS));
    UnitCost(r, USD, SumCost(fills, USD));
  }

  /** One sell on a held row: the table stays well formed, the row stays
      the first one with the symbol, and it becomes the sold row. */
  lemma SellStep(t: PortfolioTable, symbol: string, q: real, now: int, i: nat)
    requires WellFormed(t)
    requires FirstWithSymbol(t.rows, symbol) == Some(i)
    ensures var t1 := UpdatePortfolio(t, SellOf(symbol, q), 0.0, 0.0, now);
            && WellFormed(t1)
            && FirstWithSymbol(t1.rows, symbol) == Some(i)
            && t1.rows[i] == Sold(t.rows[i], q, now)
  {
    UpdateKeepsLookup(t, SellOf(symbol, q), 0.0, 0.0, now, i);
    HeldRowAfter(t, SellOf(symbol, q), 0.0, 0.0, now, i);
  }

  /** A row after selling each quantity of `qtys`, in order. */
  function SoldAll(row: PortfolioRow, qtys: seq<real>, now: int): PortfolioRow
    decreases |qtys|
  {
    if |qtys| == 0 then row else SoldAll(Sold(row, qtys[0], now), qtys[1..], now)
  }

  /** A run of sells moves only the first row holding the symbol, which goes
      through the same sells one by one. */
  lemma {:induction false} SellsTrackRow(t: PortfolioTable, symbol: string, qtys: seq<real>, now: int, i: nat)
    requires WellFormed(t)
    requires FirstWithSymbol(t.rows, symbol) == Some(i)
    ensures var t' := ApplySells(t, symbol, qtys, now);
            && WellFormed(t')
            && FirstWithSymbol(t'.rows, symbol) == Some(i)
            && t'.rows[i] == SoldAll(t.rows[i], qtys, now)
    decreases |qtys|
  {
    if |qtys| > 0 {
      var t1 := UpdatePortfolio(t, SellOf(symbol, qtys[0]), 0.0, 0.0, now);
      SellStep(t, symbol, qtys[0], now, i);
      SellsTrackRow(t1, symbol, qtys[1..], now, i);
      ApplySellsUnfold(t, symbol, qtys, now);
    }
  }

  /** Sells of non-negative quantities keep the average cost and the last
      price, and leave max(0, quantity − Σ qᵢ), as one sell of the total
      would. */
  lemma {:induction false} SoldAllKeepsCost(row: PortfolioRow, qtys: seq<real>, now: int)
    requires forall k | 0 <= k < |qtys| :: qtys[k] >= 0.0
    ensures var r := SoldAll(row, qtys, now);
            && r.ppcARS == row.ppcARS && r.ppcUSD == row.ppcUSD
            && r.lastPriceARS == row.lastPriceARS && r.lastPriceUSD == row.lastPriceUSD
            && (|qtys| > 0 ==> r.amount == Clamp(row.amount - SumReal(qtys)))
    decreases |qtys|
  {
    if |qtys| > 0 {
      var first := Sold(row, qtys[0], now);
      SoldAllKeepsCost(first, qtys[1..], now);
      if |qtys| > 1 {
        SumRealNonNegative(qtys[1..]);
        ClampThenSubtract(row.amount - qtys[0], SumReal(qtys[1..]));
      }
    }
  }

  lemma ApplySellsUnfold(t: PortfolioTable, symbol: string, qtys: seq<real>, now: int)
    requires |qtys| > 0
    ensures ApplySells(t, symbol, qtys, now)
              == ApplySells(UpdatePortfolio(t, SellOf(symbol, qtys[0]), 0.0, 0.0, now), symbol, qtys[1..], now)
  {
  }

  /** Flooring at zero and then taking away a non-negative quantity is the
      same as taking it away first and flooring once. */
  lemma ClampThenSubtract(x: real, y: real)
    requires y >= 0.0
    ensures Clamp(Clamp(x) - y) == Clamp(x - y)
  {
  }

  lemma {:induction false} SumRealNonNegative(qs: seq<real>)
    requires forall k | 0 <= k < |qs| :: qs[k] >= 0.0
    ensures SumReal(qs) >= 0.0
    decreases |qs|
  {
    if |qs| > 0 {
      SumRealNonNegative(qs[1..]);
    }
  }

  /** The worked example, first half: buy 10 at 100 USD, then 5 at 130 USD,
      and hold 15 units at an average cost of 110 USD (110 000 ARS at a rate
      of 1000). */
  lemma AaplBuysExample(now: int)
    ensures var bought := ApplyBuys(EmptyTable(), "AAPL", AaplFills(), now);
            && WellFormed(bought) && FirstWithSymbol(bought.rows, "AAPL") == Some(0)
            && bought.rows[0].amount == 15.0
            && bought.rows[0].ppcUSD == 110.0 && bought.rows[0].ppcARS == 110000.0
  {
    var fills := AaplFills();
    AverageCostOfBuys(EmptyTable(), "AAPL", fills, now);
    assert SumQty(fills) == 15.0 by {
      assert fills[1..][1..] == [];
    }
    assert SumCost(fills, USD) == 1650.0 && SumCost(fills, ARS) == 1650000.0 by {
      assert fills[1..][1..] == [];
      assert FillCost(fills[0], USD) == 1000.0 && FillCost(fills[1], USD) == 650.0;
      assert FillCost(fills[0], ARS) == 1000000.0 && FillCost(fills[1], ARS) == 650000.0;
    }
  }

  function AaplFills(): seq<Fill> {
    [Fill(10.0, 100000.0, 100.0), Fill(5.0, 130000.0, 130.0)]
  }

  /** The worked example, second half: selling 5 of the 15 units leaves 10,
      still at 110 USD. */
  lemma AaplSellExample(now: int)
    ensures var sold := ApplySells(ApplyBuys(EmptyTable(), "AAPL", AaplFills(), now), "AAPL", [5.0], now);
            sold.rows[0].amount == 10.0 && sold.rows[0].ppcUSD == 110.0 && sold.rows[0].ppcARS == 110000.0
  {
    var bought := ApplyBuys(EmptyTable(), "AAPL", AaplFills(), now);
    AaplBuysExample(now);
    SellOnce(bought, "AAPL", 5.0, now, 0);
  }

  /** One sell of `q` units from the first row holding the symbol, as a run of
      one. */
  lemma SellOnce(t: PortfolioTable, symbol: string, q: real, now: int, i: nat)
    requires WellFormed(t) && FirstWithSymbol(t.rows, symbol) == Some(i) && q >= 0.0
    ensures FirstWithSymbol(ApplySells(t, symbol, [q], now).rows, symbol) == Some(i)
    ensures var r := ApplySells(t, symbol, [q], now).rows[i];
            && r.amount == Clamp(t.rows[i].amount - q)
            && r.ppcARS == t.rows[i].ppcARS && r.ppcUSD == t.rows[i].ppcUSD
  {
    SellsTrackRow(t, symbol, [q], now, i);
    SoldAllKeepsCost(t.rows[i], [q], now);
    assert SumReal([q]) == q by {
      assert [q][1..] == [];
    }
  }

  // ------------------------------------------------------------ snapshot

  /** `iolData.find(a => a.symbol === symbol)`: the first broker position
      with the symbol, if any. */
  function FindBySymbol(broker: seq<BrokerAsset>, symbol: string): (r: Option<BrokerAsset>)
    ensures r.None? <==> forall k | 0 <= k < |broker| :: broker[k].symbol != symbol
    ensures r.Some? ==> r.value.symbol == symbol
    // `find` answers the first match, so a repeated symbol reads its first position
    ensures r.Some? ==> exists k | 0 <= k < |broker| :: broker[k] == r.value && forall j | 0 <= j < k :: broker[j].symbol != symbol
  {
    match FirstAssetWithSymbol(broker, symbol)
    case Some(k) => Some(broker[k])
    case None => None
  }

  function FirstAssetWithSymbol(broker: seq<BrokerAsset>, symbol: string): (r: Option<nat>)
    ensures r.None? <==> forall k | 0 <= k < |broker| :: broker[k].symbol != symbol
    ensures r.Some? ==> r.value < |broker| && broker[r.value].symbol == symbol
    ensures r.Some? ==> forall k | 0 <= k < r.value :: broker[k].symbol != symbol
  {
    if |broker| == 0 then None
    else if broker[0].symbol == symbol then Some(0)
    else match FirstAssetWithSymbol(broker[1..], symbol)
      case None => None
      case Some(k) => Some(k + 1)
  }

  /** The broker's per-unit figure the snapshot reads: its average purchase
      price `ppcARS`/`ppcUSD`, not its latest price. */
  function BrokerPpc(a: BrokerAsset, c: Currency): real {
    match c
    case ARS => a.ppcARS
    case USD => a.ppcUSD
  }

  /** The unit price a row is valued at: the broker's when it reports the
      symbol, the stored last price otherwise. */
  function SnapshotPrice(row: PortfolioRow, broker: seq<BrokerAsset>, c: Currency): real {
    match FindBySymbol(broker, row.symbol)
    case Some(a) => BrokerPpc(a, c)
    case None => LastPrice(row, c)
  }

  /** Reference definition of the snapshot total: Σ amount × snapshot price. */
  function SnapshotTotal(rows: seq<PortfolioRow>, broker: seq<BrokerAsset>, c: Currency): real {
    if |rows| == 0 then 0.0
    else SnapshotTotal(rows[..|rows| - 1], broker, c) + rows[|rows| - 1].amount * SnapshotPrice(rows[|rows| - 1], broker, c)
  }

  /** A row after the snapshot's UPDATE: its last price becomes the broker's
      figure when the broker reports its symbol. */
  function Refresh(row: PortfolioRow, broker: seq<BrokerAsset>): PortfolioRow {
    match FindBySymbol(broker, row.symbol)
    case Some(a) => row.(lastPriceARS := a.ppcARS, lastPriceUSD := a.ppcUSD)
    case None => row
  }

  function RefreshAll(rows: seq<PortfolioRow>, broker: seq<BrokerAsset>): (r: seq<PortfolioRow>)
    ensures |r| == |rows|
    ensures forall j | 0 <= j < |rows| :: r[j] == Refresh(rows[j], broker)
  {
    seq(|rows|, j requires 0 <= j < |rows| => Refresh(rows[j], broker))
  }

  /** UPDATE Portfolio SET lastPriceARS, lastPriceUSD WHERE symbol = `symbol`. */
  function UpdateWhereSymbol(rows: seq<PortfolioRow>, symbol: string, priceARS: real, priceUSD: real): (r: seq<PortfolioRow>)
    ensures |r| == |rows|
    ensures forall j | 0 <= j < |rows| ::
              r[j] == (if rows[j].symbol == symbol then rows[j].(lastPriceARS := priceARS, lastPriceUSD := priceUSD) else rows[j])
  {
    seq(|rows|, j requires 0 <= j < |rows| =>
      if rows[j].symbol == symbol then rows[j].(lastPriceARS := priceARS, lastPriceUSD := priceUSD) else rows[j])
  }

  /** Valuing the rows at the snapshot's prices is valuing the refreshed
      rows at their last price: after the snapshot, the table's own
      Σ amount × lastPrice equals the total just recorded. */
  lemma {:induction false} SnapshotTotalIsRefreshedValue(rows: seq<PortfolioRow>, broker: seq<BrokerAsset>, c: Currency)
    ensures SnapshotTotal(rows, broker, c) == ValueAt(RefreshAll(rows, broker), c)
    decreases |rows|
  {
    if |rows| > 0 {
      var n := |rows| - 1;
      SnapshotTotalIsRefreshedValue(rows[..n], broker, c);
      assert RefreshAll(rows, broker)[..n] == RefreshAll(rows[..n], broker);
      RefreshedRowPrice(rows[n], broker, c);
    }
  }

  /** One row: the snapshot's price for it is the last price it is left with. */
  lemma RefreshedRowPrice(row: PortfolioRow, broker: seq<BrokerAsset>, c: Currency)
    ensures Refresh(row, broker).amount == row.amount
    ensures LastPrice(Refresh(row, broker), c) == SnapshotPrice(row, broker, c)
  {
  }

  /** With no broker position matching any row, the snapshot values every
      row at its stored last price. */
  lemma {:induction false} SnapshotWithoutMatchesUsesLastPrice(rows: seq<PortfolioRow>, broker: seq<BrokerAsset>, c: Currency)
    requires forall j | 0 <= j < |rows| :: FindBySymbol(broker, rows[j].symbol).None?
    ensures SnapshotTotal(rows, broker, c) == ValueAt(rows, c)
    decreases |rows|
  {
    if |rows| > 0 {
      SnapshotWithoutMatchesUsesLastPrice(rows[..|rows| - 1], broker, c);
    }
  }

  /** The symbols of the first `k` rows. */
  function SeenSymbols(rows: seq<PortfolioRow>, k: nat): set<string>
    requires k <= |rows|
  {
    set m | 0 <= m < k :: rows[m].symbol
  }

  /** The rows with only the symbols in `seen` refreshed: the table part-way
      through the snapshot's loop. */
  function PartlyRefreshed(rows: seq<PortfolioRow>, seen: set<string>, broker: seq<BrokerAsset>): seq<PortfolioRow> {
    seq(|rows|, j requires 0 <= j < |rows| => if rows[j].symbol in seen then Refresh(rows[j], broker) else rows[j])
  }

  /** One UPDATE ... WHERE symbol with the broker's figures refreshes one
      more symbol; a symbol the broker lacks is left as it is. */
  lemma RefreshOneSymbol(rows: seq<PortfolioRow>, seen: set<string>, broker: seq<BrokerAsset>, symbol: string)
    ensures FindBySymbol(broker, symbol).Some? ==>
              var a := FindBySymbol(broker, symbol).value;
              UpdateWhereSymbol(PartlyRefreshed(rows, seen, broker), symbol, a.ppcARS, a.ppcUSD)
                == PartlyRefreshed(rows, seen + {symbol}, broker)
    ensures FindBySymbol(broker, symbol).None? ==>
              PartlyRefreshed(rows, seen, broker) == PartlyRefreshed(rows, seen + {symbol}, broker)
  {
  }

  lemma NothingSeenIsUnchanged(rows: seq<PortfolioRow>, broker: seq<BrokerAsset>)
    ensures PartlyRefreshed(rows, SeenSymbols(rows, 0), broker) == rows
  {
    assert SeenSymbols(rows, 0) == {};
  }

  lemma SeenSymbolsStep(rows: seq<PortfolioRow>, k: nat)
    requires k < |rows|
    ensures SeenSymbols(rows, k + 1) == SeenSymbols(rows, k) + {rows[k].symbol}
  {
  }

  lemma AllSeenIsRefreshAll(rows: seq<PortfolioRow>, broker: seq<BrokerAsset>)
    ensures PartlyRefreshed(rows, SeenSymbols(rows, |rows|), broker) == RefreshAll(rows, broker)
  {
    forall j | 0 <= j < |rows|
      ensures rows[j].symbol in SeenSymbols(rows, |rows|)
    {
    }
  }

  lemma SnapshotTotalStep(rows: seq<PortfolioRow>, k: nat, broker: seq<BrokerAsset>, c: Currency)
    requires k < |rows|
    ensures SnapshotTotal(rows[..k + 1], broker, c)
              == SnapshotTotal(rows[..k], broker, c) + rows[k].amount * SnapshotPrice(rows[k], broker, c)
  {
    assert rows[..k + 1][..k] == rows[..k];
  }

  /** What one pass of the snapshot's loop relies on. */
  lemma SnapshotRowFacts(rows: seq<PortfolioRow>, k: nat, latest: seq<BrokerAsset>)
    requires k < |rows|
    ensures var symbol, seen := rows[k].symbol, SeenSymbols(rows, k);
            && (FindBySymbol(latest, symbol).Some? ==>
                  var a := FindBySymbol(latest, symbol).value;
                  UpdateWhereSymbol(PartlyRefreshed(rows, seen, latest), symbol, a.ppcARS, a.ppcUSD)
                    == PartlyRefreshed(rows, SeenSymbols(rows, k + 1), latest))
            && (FindBySymbol(latest, symbol).None? ==>
                  PartlyRefreshed(rows, seen, latest) == PartlyRefreshed(rows, SeenSymbols(rows, k + 1), latest))
    ensures SnapshotTotal(rows[..k + 1], latest, ARS)
              == SnapshotTotal(rows[..k], latest, ARS) + rows[k].amount * SnapshotPrice(rows[k], latest, ARS)
    ensures SnapshotTotal(rows[..k + 1], latest, USD)
              == SnapshotTotal(rows[..k], latest, USD) + rows[k].amount * SnapshotPrice(rows[k], latest, USD)
  {
    SnapshotTotalStep(rows, k, latest, ARS);
    SnapshotTotalStep(rows, k, latest, USD);
    RefreshOneSymbol(rows, SeenSymbols(rows, k), latest, rows[k].symbol);
    SeenSymbolsStep(rows, k);
  }

  /** One pass of the snapshot's loop: the row at `k` is valued, and its
      symbol's rows are refreshed when the broker reports it. */
  method SnapshotRow(rows: seq<PortfolioRow>, k: nat, latest: seq<BrokerAsset>,
                     current: seq<PortfolioRow>, totalARS: real, totalUSD: real)
    returns (current': seq<PortfolioRow>, totalARS': real, totalUSD': real)
    requires k < |rows|
    requires current == PartlyRefreshed(rows, SeenSymbols(rows, k), latest)
    requires totalARS == SnapshotTotal(rows[..k], latest, ARS)
    requires totalUSD == SnapshotTotal(rows[..k], latest, USD)
    ensures current' == PartlyRefreshed(rows, SeenSymbols(rows, k + 1), latest)
    ensures totalARS' == SnapshotTotal(rows[..k + 1], latest, ARS)
    ensures totalUSD' == SnapshotTotal(rows[..k + 1], latest, USD)
  {
    var row := rows[k];
    SnapshotRowFacts(rows, k, latest);
    current' := current;
    var found := FindBySymbol(latest, row.symbol);
    if found.Some? {
      current' := UpdateWhereSymbol(current, row.symbol, found.value.ppcARS, found.value.ppcUSD);
    }
    totalARS' := totalARS + row.amount * SnapshotPrice(row, latest, ARS);
    totalUSD' := totalUSD + row.amount * SnapshotPrice(row, latest, USD);
  }

  /** The row whose UPDATE throws: `updateFails` names a row, and an UPDATE
      is sent for that row only when the broker reports its symbol. */
  function FailingUpdate(rows: seq<PortfolioRow>, broker: seq<BrokerAsset>, updateFails: Option<nat>): (r: Option<nat>)
    ensures r.Some? <==> updateFails.Some? && updateFails.value < |rows|
                         && FindBySymbol(broker, rows[updateFails.value].symbol).Some?
    ensures r.Some? ==> r == updateFails
  {
    match updateFails
    case Some(k) => if k < |rows| && FindBySymbol(broker, rows[k].symbol).Some? then Some(k) else None
    case None => None
  }

  /** How many rows the loop gets through: up to the failing UPDATE, or all. */
  function RowsDone(rows: seq<PortfolioRow>, broker: seq<BrokerAsset>, updateFails: Option<nat>): (n: nat)
    ensures n <= |rows|
    ensures FailingUpdate(rows, broker, updateFails).None? <==> n == |rows|
  {
    match FailingUpdate(rows, broker, updateFails)
    case Some(k) => k
    case None => |rows|
  }

  /** What `savePortfolioValueSnapshot` leaves: the `Portfolio` table, the
      `PortfolioValue` table, and the snapshot written or the error thrown. */
  datatype SnapshotCall = SnapshotCall(table: PortfolioTable, values: seq<PortfolioValue>, result: Result<PortfolioValue>)

  /** `savePortfolioValueSnapshot`. `readOk` says whether the positions
      SELECT succeeds, `broker` is the `getPortfolio` outcome, `updateFails`
      the row whose UPDATE throws, if any, and `insertOk` whether the final
      INSERT succeeds. Nothing is caught: each failure ends the call, and
      UPDATEs already made stay made. */
  method SavePortfolioValueSnapshot(t: PortfolioTable, values: seq<PortfolioValue>, readOk: bool,
                                    broker: Result<seq<BrokerAsset>>, updateFails: Option<nat>,
                                    insertOk: bool, now: int) returns (r: SnapshotCall)
    // a failed read, of the positions or of the broker, throws before anything is written
    ensures !readOk || broker.Failure? ==> r.table == t && r.values == values && r.result.Failure?
    ensures r.result.Success? <==>
              readOk && broker.Success? && FailingUpdate(t.rows, broker.value, updateFails).None? && insertOk
    // the rows before the failing UPDATE, or all rows, take the broker's figure as last price
    ensures readOk && broker.Success? ==>
              r.table == t.(rows := PartlyRefreshed(t.rows, SeenSymbols(t.rows, RowsDone(t.rows, broker.value, updateFails)), broker.value))
    ensures readOk && broker.Success? && FailingUpdate(t.rows, broker.value, updateFails).None? ==>
              r.table == t.(rows := RefreshAll(t.rows, broker.value))
    // exactly one snapshot is appended on success, valued at the snapshot prices; none otherwise
    ensures r.result.Success? ==>
              && r.result.value == PortfolioValue(SnapshotTotal(t.rows, broker.value, ARS),
                                                  SnapshotTotal(t.rows, broker.value, USD), now)
              && r.values == values + [r.result.value]
    ensures r.result.Failure? ==> r.values == values
  {
    if !readOk {
      return SnapshotCall(t, values, Failure("Error reading Portfolio"));
    }
    if broker.Failure? {
      return SnapshotCall(t, values, Failure(broker.error));
    }
    var latest := broker.value;
    var rows := t.rows;
    var stop := RowsDone(rows, latest, updateFails);
    var current := rows;
    var totalARS, totalUSD := 0.0, 0.0;
    var k := 0;
    NothingSeenIsUnchanged(rows, latest);
    while k < stop
      invariant 0 <= k <= stop
      invariant current == PartlyRefreshed(rows, SeenSymbols(rows, k), latest)
      invariant totalARS == SnapshotTotal(rows[..k], latest, ARS)
      invariant totalUSD == SnapshotTotal(rows[..k], latest, USD)
    {
      current, totalARS, totalUSD := SnapshotRow(rows, k, latest, current, totalARS, totalUSD);
      k := k + 1;
    }
    if stop < |rows| {
      return SnapshotCall(t.(rows := current), values, Failure("Error updating Portfolio"));
    }
    assert rows[..k] == rows;
    AllSeenIsRefreshAll(rows, latest);
    if !insertOk {
      return SnapshotCall(t.(rows := current), values, Failure("Error inserting PortfolioValue"));
    }
    var v := PortfolioValue(totalARS, totalUSD, now);
    return SnapshotCall(t.(rows := current), values + [v], Success(v));
  }
}

=== FILE: symbol_order.dfy ===
/** `ORDER BY symbol ASC` over the `Portfolio` table. SQLite's default BINARY
    collation compares the UTF-8 bytes of the text, which orders strings the
    same way as comparing their code points one by one: the lexicographic
    order on `string` defined here. */
module SymbolOrder {
  import opened Tables

  /** `a` sorts before or together with `b`: a prefix comes first, otherwise
      the first differing character decides. */
  predicate SymbolLe(a: string, b: string) {
    |a| == 0 || (|b| > 0 && (a[0] < b[0] || (a[0] == b[0] && SymbolLe(a[1..], b[1..]))))
  }

  lemma {:induction false} SymbolLeReflexive(a: string)
    ensures SymbolLe(a, a)
  {
    if |a| > 0 {
      SymbolLeReflexive(a[1..]);
    }
  }

  /** Any two symbols are comparable, so the order is total. */
  lemma {:induction false} SymbolLeTotal(a: string, b: string)
    ensures SymbolLe(a, b) || SymbolLe(b, a)
  {
    if |a| > 0 && |b| > 0 && a[0] == b[0] {
      SymbolLeTotal(a[1..], b[1..]);
    }
  }

  lemma {:induction false} SymbolLeTransitive(a: string, b: string, c: string)
    requires SymbolLe(a, b) && SymbolLe(b, c)
    ensures SymbolLe(a, c)
  {
    if |a| > 0 && a[0] == b[0] && b[0] == c[0] {
      SymbolLeTransitive(a[1..], b[1..], c[1..]);
    }
  }

  /** Two symbols each sorting before the other are the same symbol, so the
      order is a genuine ordering of strings and not a preorder. */
  lemma {:induction false} SymbolLeAntisymmetric(a: string, b: string)
    requires SymbolLe(a, b) && SymbolLe(b, a)
    ensures a == b
  {
    if |a| > 0 {
      SymbolLeAntisymmetric(a[1..], b[1..]);
      assert a == [a[0]] + a[1..];
      assert b == [b[0]] + b[1..];
    }
  }

  /** Each row's symbol sorts before or with the next one's. */
  predicate SortedBySymbol(rows: seq<PortfolioRow>) {
    forall i | 0 < i < |rows| :: SymbolLe(rows[i - 1].symbol, rows[i].symbol)
  }

  /** Neighbour-wise order gives order between every pair of rows. */
  lemma {:induction false} SortedIsPairwise(rows: seq<PortfolioRow>, i: nat, j: nat)
    requires SortedBySymbol(rows)
    requires i <= j < |rows|
    ensures SymbolLe(rows[i].symbol, rows[j].symbol)
    decreases j - i
  {
    if i == j {
      SymbolLeReflexive(rows[i].symbol);
    } else {
      SortedIsPairwise(rows, i + 1, j);
      SymbolLeTransitive(rows[i].symbol, rows[i + 1].symbol, rows[j].symbol);
    }
  }

  /** Places `x` before the first row whose symbol it sorts before or with. */
  function InsertBySymbol(x: PortfolioRow, rows: seq<PortfolioRow>): (r: seq<PortfolioRow>)
    requires SortedBySymbol(rows)
    ensures SortedBySymbol(r)
    ensures multiset(r) == multiset(rows) + multiset{x}
    ensures |r| > 0 && (r[0] == x || (|rows| > 0 && r[0] == rows[0]))
  {
    if |rows| == 0 then [x]
    else if SymbolLe(x.symbol, rows[0].symbol) then [x] + rows
    else
      var tail := InsertBySymbol(x, rows[1..]);
      SymbolLeTotal(x.symbol, rows[0].symbol);
      assert rows == [rows[0]] + rows[1..];
      [rows[0]] + tail
  }

  /** Insertion sort by symbol. */
  function SortBySymbol(rows: seq<PortfolioRow>): (r: seq<PortfolioRow>)
    ensures SortedBySymbol(r)
    ensures multiset(r) == multiset(rows)
  {
    if |rows| == 0 then []
    else
      assert rows == [rows[0]] + rows[1..];
      InsertBySymbol(rows[0], SortBySymbol(rows[1..]))
  }

  /** The sorted listing has exactly the rows of the table: none lost, none
      invented. */
  lemma SortKeepsRows(rows: seq<PortfolioRow>)
    ensures |SortBySymbol(rows)| == |rows|
    ensures forall row | row in rows :: row in SortBySymbol(rows)
    ensures forall row | row in SortBySymbol(rows) :: row in rows
  {
    var s := SortBySymbol(rows);
    assert |s| == |multiset(s)| == |multiset(rows)| == |rows|;
    forall row | row in rows
      ensures row in s
    {
      assert row in multiset(rows);
    }
    forall row | row in s
      ensures row in rows
    {
      assert row in multiset(s);
    }
  }
}

=== FILE: tables.dfy ===
/** The `Portfolio` table of the local SQLite store (app/database.ts) and the
    `PortfolioValue` and `Operations` tables, as sequences of records in rowid
    order. `id` is an AUTOINCREMENT key: `nextId` is the value the next INSERT
    receives, so ids are never reused. The schema has no UNIQUE constraint on
    `symbol`, so several rows may share one. */
module Tables {
  import opened Wrappers

  /** The two currencies every amount is mirrored in. */
  datatype Currency = ARS | USD

  /** One row of `Portfolio`: the record of app/types.ts plus the `id` key and
      the `openPosition` column added by the migration (default 0). */
  datatype PortfolioRow = PortfolioRow(
    id: nat,
    symbol: string,
    description: string,
    instrumentType: string,
    amount: real,
    ppcARS: real,
    ppcUSD: real,
    lastPriceARS: real,
    lastPriceUSD: real,
    date: int,
    openPosition: bool)

  datatype PortfolioTable = PortfolioTable(rows: seq<PortfolioRow>, nextId: nat)

  /** One row of `PortfolioValue`: a valuation snapshot. */
  datatype PortfolioValue = PortfolioValue(priceARS: real, priceUSD: real, date: int)

  /** One row of `Operations`, the audit ledger written by `storeOperation`. */
  datatype OperationRecord = OperationRecord(
    numero: int,
    fecha: string,
    tipo: string,
    simbolo: string,
    cantidad: real,
    priceARS: real,
    priceUSD: real)

  function Ppc(r: PortfolioRow, c: Currency): real {
    match c
    case ARS => r.ppcARS
    case USD => r.ppcUSD
  }

  function LastPrice(r: PortfolioRow, c: Currency): real {
    match c
    case ARS => r.lastPriceARS
    case USD => r.lastPriceUSD
  }

  function Total(v: PortfolioValue, c: Currency): real {
    match c
    case ARS => v.priceARS
    case USD => v.priceUSD
  }

  /** Every id is below the AUTOINCREMENT counter, and no two rows share an id. */
  ghost predicate WellFormed(t: PortfolioTable) {
    && (forall i | 0 <= i < |t.rows| :: t.rows[i].id < t.nextId)
    && (forall i, j | 0 <= i < j < |t.rows| :: t.rows[i].id != t.rows[j].id)
  }

  function EmptyTable(): (t: PortfolioTable)
    ensures WellFormed(t) && |t.rows| == 0
  {
    PortfolioTable([], 1)
  }

  /** INSERT: the row is appended with the next AUTOINCREMENT id. */
  function Insert(t: PortfolioTable, r: PortfolioRow): (t': PortfolioTable)
    ensures t'.rows == t.rows + [r.(id := t.nextId)]
    ensures t'.nextId > t.nextId
    ensures WellFormed(t) ==> WellFormed(t')
  {
    PortfolioTable(t.rows + [r.(id := t.nextId)], t.nextId + 1)
  }

  /** UPDATE ... WHERE id = `id`: `f` is applied to every row carrying `id`. */
  function UpdateWhereId(rows: seq<PortfolioRow>, id: nat, f: PortfolioRow -> PortfolioRow): (r: seq<PortfolioRow>)
    ensures |r| == |rows|
    ensures forall i | 0 <= i < |rows| :: r[i] == (if rows[i].id == id then f(rows[i]) else rows[i])
  {
    seq(|rows|, i requires 0 <= i < |rows| => if rows[i].id == id then f(rows[i]) else rows[i])
  }

  /** Index of the first row holding `symbol`: the `existing[0]` of
      `SELECT * FROM Portfolio WHERE symbol = ?`, rows coming in rowid order. */
  function FirstWithSymbol(rows: seq<PortfolioRow>, symbol: string): (r: Option<nat>)
    ensures r.None? <==> forall j | 0 <= j < |rows| :: rows[j].symbol != symbol
    ensures r.Some? ==> r.value < |rows| && rows[r.value].symbol == symbol
    ensures r.Some? ==> forall j | 0 <= j < r.value :: rows[j].symbol != symbol
  {
    if |rows| == 0 then None
    else if rows[0].symbol == symbol then Some(0)
    else match FirstWithSymbol(rows[1..], symbol)
      case None => None
      case Some(k) => Some(k + 1)
  }

  /** Lookups by symbol see only the symbols of the rows, so an update that
      keeps every symbol in place keeps every lookup's answer. */
  lemma FirstWithSymbolKeptBySameSymbols(a: seq<PortfolioRow>, b: seq<PortfolioRow>, symbol: string)
    requires |a| == |b|
    requires forall i | 0 <= i < |a| :: a[i].symbol == b[i].symbol
    ensures FirstWithSymbol(a, symbol) == FirstWithSymbol(b, symbol)
  {
  }

  /** Σ amount × lastPrice over the rows, in currency `c`; the sum grows at
      the end, matching the source's loops over rows. */
  function ValueAt(rows: seq<PortfolioRow>, c: Currency): real {
    if |rows| == 0 then 0.0
    else ValueAt(rows[..|rows| - 1], c) + rows[|rows| - 1].amount * LastPrice(rows[|rows| - 1], c)
  }

  lemma {:induction false} ValueAtAppend(a: seq<PortfolioRow>, b: seq<PortfolioRow>, c: Currency)
    ensures ValueAt(a + b, c) == ValueAt(a, c) + ValueAt(b, c)
    decreases |b|
  {
    if |b| == 0 {
      assert a + b == a;
    } else {
      var b' := b[..|b| - 1];
      assert (a + b)[..|a + b| - 1] == a + b';
      ValueAtAppend(a, b', c);
    }
  }

  /** The value of a table does not depend on the order of its rows. */
  lemma {:induction false} ValueAtPermutation(a: seq<PortfolioRow>, b: seq<PortfolioRow>, c: Currency)
    requires multiset(a) == multiset(b)
    ensures ValueAt(a, c) == ValueAt(b, c)
    decreases |a|
  {
    if |a| == 0 {
      assert |b| == |multiset(b)| == 0;
    } else {
      var x := a[|a| - 1];
      var a' := a[..|a| - 1];
      var k := MatchLast(a, b);
      var b' := b[..k] + b[k + 1..];
      assert a == a' + [x];
      assert b == b[..k] + [x] + b[k + 1..];
      ValueAtPermutation(a', b', c);
      ValueAtAppend(a', [x], c);
      ValueAtAppend(b[..k] + [x], b[k + 1..], c);
      ValueAtAppend(b[..k], [x], c);
      ValueAtAppend(b[..k], b[k + 1..], c);
    }
  }

  /** The last row of `a` sits somewhere in a rearrangement `b` of `a`, and
      what remains of the two on removing it are rearrangements again. */
  lemma MatchLast<T>(a: seq<T>, b: seq<T>) returns (k: nat)
    requires multiset(a) == multiset(b) && |a| > 0
    ensures k < |b| && b[k] == a[|a| - 1]
    ensures multiset(a[..|a| - 1]) == multiset(b[..k] + b[k + 1..])
  {
    var x := a[|a| - 1];
    var a' := a[..|a| - 1];
    assert a == a' + [x];
    assert x in multiset(b);
    k :| 0 <= k < |b| && b[k] == x;
    var b' := b[..k] + b[k + 1..];
    assert b == b[..k] + [x] + b[k + 1..];
    assert multiset(a) == multiset(a') + multiset{x};
    assert multiset(b) == multiset(b[..k]) + multiset{x} + multiset(b[k + 1..]);
    assert multiset(b') == multiset(b[..k]) + multiset(b[k + 1..]);
    assert multiset(a') == multiset(a) - multiset{x};
    assert multiset(b') == multiset(b) - multiset{x};
  }
}

=== FILE: wrappers.dfy ===
/** Failure-carrying datatypes shared by the whole model. An `Option` stands
    for a value the source may find absent (a SQL row, a JavaScript `null`),
    a `Result` for a call that may throw. */
module Wrappers {

  datatype Option<+T> = None | Some(value: T)

  /** The source's exceptions carry only a message. */
  datatype Result<+T> = Success(value: T) | Failure(error: string)
}
